=== FILE: README.md ===
# bingo-functional: pattern matching, algorithms and functors in Dafny

A model of the PHP library bingo-functional. It covers three parts:

- **The pattern-matching engine** of `src/PatternMatching/functions.php`:
  - `getNumConditions` and `match`, which dispatch on cons-style keys such as `(x:y:_)`;
  - `patternMatch`, which routes a subject to one of three matchers:
    - `evalStringPattern` for quoted literal keys;
    - `evalArrayPattern` for `[...]` list keys;
    - `evalObjectPattern` for class-name keys;
  - the destructuring binder `letIn`, built on `patternMatch`.
- **Algorithm helpers**: `extend`, `fromPairs`, `every`, `any`, `compact`, `slugify`, `partialLeft`/`partial`, `partialRight` and `flip`.
- **Functional wrappers**: `State`, `Reader`, `ListMonad`, and the `fromValue`/`lift` constructors of `Maybe`.

## Building blocks

**PHP values and arrays.**
- A PHP value is a datatype: `Null | Bool | Int | Str | Arr | Obj`. An object is represented by its class name.
- A PHP array is an ordered sequence of key/value entries, with integer or string keys (`PhpArray`). The model has:
  - the two writes the library uses: `$a[$k] = $v` and `$a[] = $v`;
  - PHP's rule for turning a value into a key.
- `array_merge` walks its arguments exactly as `extend` does. So `ArrayExtend.Extend` also models:
  - the `array_merge(...)` calls in `getNumConditions`, `fromPairs` and `letIn`.

**Matchers.** A matcher returns the *decision* it takes (`PatternSet.Outcome`), not the handler's result. The decision is one of:
- `Invoke(key, args)`: call `$patterns[key](...args)`;
- `ReturnsFalse`: the synthetic fallback of `match`;
- `NoHandler(key)`: a lookup of a key the pattern set does not hold. PHP then fails calling `null`.

Calling the handler is ordinary function application, which is left to the caller.

**Callables.** A PHP callable taking any number of arguments is a Dafny function from its argument list. State and Reader computations are Dafny functions.

## How the list matcher behaves

An idealised list matcher would prefer the most specific candidate, reject a candidate on its first literal mismatch, and let `_` bind nothing. Nothing in the library promises any of these. The code does otherwise, and the model follows the code:

- **The first survivor wins.** The first surviving candidate in declaration order is called. There is no specificity ranking (`ArrayPattern.EvalArrayChoice`).
- **A mismatch is tolerated.** A literal that disagrees with its element does not reject a candidate by itself (`ArrayPattern.MismatchTolerated`).
- **Names need an agreement.** A key made only of names survives only if some name happens to equal the element at its position (`ArrayPattern.PureNamesNeedAnAgreement`).
- **`_` binds.** `_` hands its element to the handler like any name (`ArrayPattern.WildcardInside`).
- **A repeated name binds its first occurrence.** A name that occurs twice receives the element at its first occurrence, because the lookup is `indexOf` (`ArrayPattern.RepeatedNameBindsFirst`).
- **No numeric literals.** The numeric-literal conversion in `evalStringPattern` never fires: `str_replace` always yields a string. Literals compare as text (`StringPattern.EvalString`).
- **`letIn` and `_`.** A declared `_` becomes the literal key `"_"`. Only the padding of a name list shorter than the value list writes `_` entries, and the last one wins (`LetBinding.WildcardEntry`, `LetBinding.ResolveUndeclared`).

## Model

| member | source | states |
|---|---|---|
| ConsPattern.NoUnderscoreArity | src/PatternMatching/functions.php:66 | a key that holds no `_` has no conditions, whatever else it holds |
| ConsPattern.WildcardArity | src/PatternMatching/functions.php:66-78 | the fallback key `_` has no conditions |
| ConsPattern.ConsKeyArity | src/PatternMatching/functions.php:68-78 | for plain names, `(n1:...:nk:_)` has one condition per name: parenthesis deletion, split on `:` and the `_` filter give back exactly `k` segments |
| ConsPattern.ConsKeySegments | src/PatternMatching/functions.php:70-74 | parsing a written cons key (delete `(` and `)`, split on `:`) gives back the parts it was written from |
| ConsPattern.NumConditionsInOrder | src/PatternMatching/functions.php:64-84 | for distinct, non-numeric string keys, the arity table lists every key once, in declaration order, with its arity |
| ConsPattern.NumConditionsOracle | tests/PatternMatchTest.php:20-31 | `getNumConditions(['(a:b:_)', '(a:_)', '_'])` is `['(a:b:_)' => 2, '(a:_)' => 1, '_' => 0]` |
| ConsPattern.ArityOracle | tests/PatternMatchTest.php:22-30 | the three keys of the arity test have arities 2, 1 and 0 |
| ConsPattern.Match | src/PatternMatching/functions.php:24-53 | 1) `false` exactly when the options lack `_`; 2) otherwise, when values are given and some key's arity equals their number, the first such key in declaration order, with all the values; 3) otherwise `_` with no arguments |
| ConsPattern.MatchFirst | src/PatternMatching/functions.php:37-51 | the key called is the first, in declaration order, whose arity is the number of values |
| ConsPattern.MatchOracle | tests/PatternMatchTest.php:34-47 | `[10, 5]` against `(x:y:_)`, `(x:_)`, `_` calls `(x:y:_)` with both values |
| PatternSet.Select | src/PatternMatching/functions.php:195 | `$patterns[$key](...)` calls the key when the set holds it, and fails when it does not |
| PatternSet.FirstSpec | src/PatternMatching/functions.php:40-44 | the position found is the first, in declaration order, whose key passes the filter; none is found exactly when no key passes |
| PatternSet.FirstMatchSpec | src/PatternMatching/functions.php:184-186 | the generic dispatch: 1) when some key qualifies, the first qualifying key is called with its arguments; 2) when none does, `_` is looked up with none |
| PatternSet.QuoteInjective | src/PatternMatching/functions.php:305 | distinct names give distinct quoted keys, and no quoted key is `_` |
| StringPattern.EvalString | src/PatternMatching/functions.php:214-251 | the handler under the key the staged pipeline yields: 1) a non-empty subject that some quoted key spells (quotes deleted) selects `"subject"`; 2) otherwise, or for `""` and `"0"`, `_`; 3) no handler gets arguments |
| StringPattern.MatchedKeySpec | src/PatternMatching/functions.php:216-241 | the stages of the source (quoted keys filtered, each compared without quotes and requoted or turned into `_`, the `_` results filtered out, the head taken or `_`) yield `"subject"` exactly when the subject is non-empty and some quoted key spells it, and `_` otherwise |
| StringPattern.LiteralSelected | src/PatternMatching/functions.php:229-246 | a literal key `"v"` in the set is selected for the subject `v` and for no other subject |
| StringPattern.EmptySubjectFallsThrough | src/PatternMatching/functions.php:230-232 | an empty subject goes to `_` even when `"0"` is a key |
| StringPattern.IntegerSubject | src/PatternMatching/functions.php:214-234 | an integer subject is matched through its decimal text |
| StringPattern.TwoLiterals | src/PatternMatching/functions.php:218-241 | with two literal keys and `_`, a subject selects the literal it spells, anything else selects `_` |
| StringPattern.WordOracles | tests/PatternMatchTest.php:49-62 | `foo` selects `"foo"` and `baz` selects `_` |
| StringPattern.NumberOracleHit | tests/PatternMatchTest.php:64-75 | the integer `1` selects `"1"` |
| StringPattern.NumberOracleMiss | tests/PatternMatchTest.php:76 | the integer `24` selects `_` |
| ObjectPattern.EvalObject | src/PatternMatching/functions.php:266-280 | 1) the key spelling the class name is called with no arguments, provided the key holds a letter; 2) any other outcome is `_`; 3) the only failure is a missing `_` |
| ObjectPattern.UnknownClass | src/PatternMatching/functions.php:273-276 | a class no key spells selects `_` |
| ObjectPattern.ObjectOracle | tests/PatternMatchTest.php:123-135 | an `IO` object selects the `IO` class key over `State` and `_` |
| ValueMatch.PatternMatch | src/PatternMatching/functions.php:98-113 | objects go to the object matcher, lists to the list matcher, scalars by their text to the string matcher; only list keys receive arguments |
| ValueMatch.ScalarSelectsLiteral | src/PatternMatching/functions.php:109-111 | a truthy scalar selects the literal spelling its text when one exists, and `_` otherwise |
| ValueMatch.SingleValueOracle | tests/PatternMatchTest.php:95-107 | `foo` against `"foo"`, `"12"`, `_` selects `"foo"` |
| ValueMatch.MultipleValueOracle | tests/PatternMatchTest.php:109-121 | `[foo, bar, functional]` skips `["foo", "bar"]` and gives `functional` to `["foo", "bar", baz]` |
| ValueMatch.ObjectValueOracle | tests/PatternMatchTest.php:125-132 | `patternMatch` on an object selects its class key |
| ArrayPattern.MarkQuote | src/PatternMatching/functions.php:142 | a quoted token is stored as `*word`, compares as `word`, and binds nothing |
| ArrayPattern.TokensOfListKey | src/PatternMatching/functions.php:131-147 | parsing a written key `[i1, i2, ...]` gives its items back in order, literals marked, and the key passes the list-key filter |
| ArrayPattern.AgreesSomewhereIff | src/PatternMatching/functions.php:165-167 | the intersection of key and subject is non-empty exactly when some position agrees |
| ArrayPattern.AgreesEverywhereIff | src/PatternMatching/functions.php:181 | the intersection has the subject's size exactly when every position agrees |
| ArrayPattern.HasWildcardIff | src/PatternMatching/functions.php:177-179 | the `in_array('_', ...)` test holds exactly when some token, with its `*` marker deleted, is `_` |
| ArrayPattern.SurvivesSpec | src/PatternMatching/functions.php:174-182 | a candidate survives exactly when: 1) some position agrees, the key holds `_` and the last position agrees; or 2) some position agrees and the last token holds neither `*` nor `_`; or 3) every position agrees |
| ArrayPattern.EvalArray | src/PatternMatching/functions.php:127-200 | the outcome is a list key or `_` with no arguments; the only failure is a missing `_` |
| ArrayPattern.EvalArrayChoice | src/PatternMatching/functions.php:184-195 | 1) the key called is the first candidate in declaration order, with the arguments its tokens bind; 2) `_` is reached exactly when no key is a candidate |
| ArrayPattern.Chosen | src/PatternMatching/functions.php:185-195 | a candidate with no candidate before it is the key called |
| ArrayPattern.SecondChosen | src/PatternMatching/functions.php:152-159 | a first key of the wrong length is filtered out, so a candidate second key is called |
| ArrayPattern.EmptySubject | src/PatternMatching/functions.php:152-159 | the empty list always reaches `_`, since every list key has at least one token |
| ArrayPattern.LengthMismatch | src/PatternMatching/functions.php:153-157 | a key whose token count differs from the subject's length is never chosen |
| ArrayPattern.PureNamesNeedAnAgreement | src/PatternMatching/functions.php:179-181 | a key whose tokens agree nowhere does not survive, even if every token is a name |
| ArrayPattern.MismatchTolerated | src/PatternMatching/functions.php:180 | one agreeing position and a last token holding neither `*` nor `_` make a candidate survive, whatever the literals elsewhere |
| ArrayPattern.ArgsPerBinding | src/PatternMatching/functions.php:187-193 | one argument per non-literal token, left to right, each the element at the first occurrence of that token; literals give none |
| ArrayPattern.DistinctNamesBindPositionally | src/PatternMatching/functions.php:187-193 | distinct names receive the elements at their own positions; a key of names only receives the whole subject in order |
| ArrayPattern.RepeatedNameBindsFirst | src/PatternMatching/functions.php:189 | a repeated name receives the element at its first occurrence both times |
| ArrayPattern.TwoLiteralsSurvive | src/PatternMatching/functions.php:181 | two agreeing literals survive and bind nothing |
| ArrayPattern.LiteralsNameSurvive | src/PatternMatching/functions.php:180 | two literals and a trailing name survive, and the name receives the last element |
| ArrayPattern.NullElementBinds | src/PatternMatching/functions.php:165-193 | a `null` element is compared as `""` and passed through: after an agreeing literal, a trailing name survives and receives the `null` |
| ArrayPattern.WildcardLiteralSurvive | src/PatternMatching/functions.php:179 | `[_, "c"]` survives `[v, c]` through its `_` and agreeing last position, and `_` receives `v` |
| ArrayPattern.WildcardInsideSurvive | src/PatternMatching/functions.php:174-193 | `["a", _, "m"]` survives `[a, u, m]` and `_` receives `u` |
| ArrayPattern.LiteralKeysParse | tests/PatternMatchTest.php:84-85 | the keys `["foo", "bar", baz]` and `["foo", "bar"]`, written out, parse to two marked literals, with and without a trailing name |
| ArrayPattern.LiteralsOracle | tests/PatternMatchTest.php:90 | `[foo, bar]` skips the three-token key and selects `["foo", "bar"]` with no arguments |
| ArrayPattern.NameOracle | tests/PatternMatchTest.php:91 | `[foo, bar, cat]` selects `["foo", "bar", baz]` and hands it `cat` |
| ArrayPattern.NameAfterPairOracle | tests/PatternMatchTest.php:111-120 | with the two-token key first, `[foo, bar, y]` still reaches the three-token key and hands it `y` |
| ArrayPattern.EmptyOracle | tests/PatternMatchTest.php:92 | `[]` selects `_` |
| ArrayPattern.WildcardLiteralParse | tests/PatternMatchTest.php:141 | the key `[_, "chemem"]`, written out, parses to `_` and a marked literal |
| ArrayPattern.WildcardThenLiteral | tests/PatternMatchTest.php:137-148 | `[func, chemem]` selects `[_, "chemem"]` and hands it `func` |
| ArrayPattern.WildcardInsideParse | tests/PatternMatchTest.php:154 | the key `["ask", _, "mike"]`, written out, parses to a literal, `_` and a literal |
| ArrayPattern.WildcardInside | tests/PatternMatchTest.php:150-161 | `[ask, uncle, mike]` selects `["ask", _, "mike"]` although the `_` position does not agree, and hands it `uncle` |
| LetBinding.Table | src/PatternMatching/functions.php:297-307 | the binder's pattern set has distinct keys, and each string key holds the value of its last slot |
| LetBinding.DeclaredEntry | src/PatternMatching/functions.php:302-306 | the key `"p"` holds the element at the last position of `p`, or `null` past the end of the list |
| LetBinding.WildcardEntry | src/PatternMatching/functions.php:298-305 | `_` holds the one-element list of the last element when the list outruns the names, and is absent otherwise |
| LetBinding.Resolve | src/PatternMatching/functions.php:310 | a requested name resolves to the value of the handler `patternMatch` selects; it fails when no handler exists or the name is empty |
| LetBinding.ResolveLiteral | src/PatternMatching/functions.php:309-310 | a name whose literal key the table holds resolves to that key's value |
| LetBinding.ResolveDeclared | src/PatternMatching/functions.php:297-310 | a declared name resolves to the element at its last declared position, or `null` |
| LetBinding.ResolveUndeclared | src/PatternMatching/functions.php:297-310 | an undeclared name resolves to `[last element]` when the list outruns the names, and fails otherwise |
| LetBinding.LetIn | src/PatternMatching/functions.php:309-313 | the continuation runs exactly when every requested name resolves, and receives the resolved values in request order |
| LetBinding.ThirdNameOracle | tests/PatternMatchTest.php:163-173 | declaring `[p, q, c]` and requesting `[c]` passes the third element |
| LetBinding.TimesTenOracle | tests/PatternMatchTest.php:165-172 | `letIn(['a','b','c'], range(1, 10))(['c'], c * 10)` is 30 |
| LetBinding.SkippedNamesOracle | tests/PatternMatchTest.php:175-185 | declaring `[a, w, w, b]` and requesting `[a, b]` passes the first and fourth elements |
| LetBinding.SumOracle | tests/PatternMatchTest.php:175-185 | `letIn(['a','_','_','b'], range(1, 10))(['a','b'], a + b)` is 5 |
| Optional.Traverse | src/PatternMatching/functions.php:310 | mapping over the requested names succeeds exactly when every name succeeds, and keeps order and length |
| PhpArray.KeyOfText | src/Algorithms/FromPairs.php:15 | a string stays a string key exactly when it is not a canonical decimal integer |
| PhpArray.KeyOfIntText | src/Algorithms/FromPairs.php:11-15 | the decimal text of an integer is read back as that integer key |
| PhpArray.Put | src/Algorithms/Extend.php:23 | `$a[$k] = $v`: `$k` now holds `$v`; every other key is unchanged; the key list is kept or grows by `$k` at the end; distinct keys stay distinct |
| PhpArray.Push | src/Algorithms/Extend.php:25 | `$a[] = $v` appends under one more than the largest integer key and keeps everything before |
| ArrayExtend.Extend | src/Algorithms/Extend.php:16-31 | 1) the result is a list-shaped array with distinct keys; 2) its integer-keyed values are those of the inputs in order, renumbered from 0; 3) each string key holds the value of its last occurrence; 4) there is one entry per distinct string key |
| ArrayExtend.AddAllInvariant | src/Algorithms/Extend.php:20-28 | the loop invariant: after any prefix of entries, the array is list-shaped, integer values are kept in order, and string keys hold their last values |
| ArrayExtend.StepStr | src/Algorithms/Extend.php:22-23 | writing a string key preserves the loop invariant |
| ArrayExtend.StepInt | src/Algorithms/Extend.php:24-26 | appending under the next integer key preserves the loop invariant |
| ArrayExtend.LastStrAppend | src/Algorithms/Extend.php:20-23 | a later list's string key overrides an earlier one |
| ArrayExtend.ExtendLastListWins | src/Algorithms/Extend.php:22-23 | a string key ends up with the value from the last list that holds it |
| ArrayExtend.ExtendIntOnly | src/Algorithms/Extend.php:20-28 | integer-keyed lists are concatenated in order and renumbered from 0; the length is the sum of the lengths |
| ArrayExtend.AddAllIntOnly | src/Algorithms/Extend.php:24-26 | appending integer-keyed entries only renumbers them `0, 1, ...` |
| ArrayExtend.ExtendOfEmpties | src/Algorithms/Extend.php:18-30 | no lists, or only empty ones, give `[]` |
| ArrayExtend.ExtendDistinctStrings | src/Algorithms/Extend.php:20-23 | merging one-entry arrays with distinct string keys gives those entries back in order |
| FromPairs.PairEntry | src/Algorithms/FromPairs.php:11-15 | an element that is not a two-element list contributes `"" => null` |
| FromPairs.FromPairs | src/Algorithms/FromPairs.php:7-21 | the result is a list-shaped array with distinct keys; empty input gives `[]` |
| FromPairs.LastPairWins | src/Algorithms/FromPairs.php:20 | a string key takes the value of the last element that writes it |
| FromPairs.PairContributes | src/Algorithms/FromPairs.php:11-15 | a pair `[s, v]` with a non-numeric string `s` that no later element rewrites contributes `s => v` |
| FromPairs.MalformedCollapse | src/Algorithms/FromPairs.php:11-13 | all malformed elements collapse into one `"" => null` entry |
| FromPairs.IntKeysRenumbered | src/Algorithms/FromPairs.php:20 | values under integer keys are kept in order, but their keys are renumbered `0, 1, ...` |
| Every.Every | src/Algorithms/Every.php:16-24 | true exactly when the predicate holds of every element; vacuously true on `[]` |
| Every.OneFailureSuffices | src/Algorithms/Every.php:20 | one failing element makes the result false |
| Every.EveryIgnoresOrder | src/Algorithms/Every.php:18-21 | the result depends only on the multiset of elements |
| Any.Any | src/Algorithms/Any.php:16-24 | true exactly when some element satisfies the predicate; false on `[]` |
| Any.AnyGrows | src/Algorithms/Any.php:18-21 | appending an element never turns true into false |
| Any.EveryImpliesAny | src/Algorithms/Any.php:20 | on a non-empty collection, `every` implies `any` |
| Compact.Compact | src/Algorithms/Compact.php:16-22 | 1) no boolean or `null` remains; 2) every other element is kept, and nothing new appears; 3) the length shrinks exactly when a boolean or `null` was present |
| Compact.CompactKeepsOrder | src/Algorithms/Compact.php:18-21 | compaction works element by element, left to right, so order is kept |
| Compact.CompactIdempotent | src/Algorithms/Compact.php:18-21 | compacting twice is compacting once |
| Compact.FalsyNonBooleansKept | src/Algorithms/Compact.php:19 | `0`, `""` and `[]` survive; `false`, `true` and `null` do not |
| Slugify.Slugify | src/Algorithms/Slugify.php:17-25 | exploding on spaces and joining with `-` replaces every space by `-`, changes nothing else, keeps the length, and leaves no space |
| Slugify.SlugifyIdempotent | src/Algorithms/Slugify.php:19-22 | a slug is its own slug |
| Slugify.SlugifyNoSpaces | src/Algorithms/Slugify.php:20-21 | a string without spaces comes back unchanged |
| Strings.JoinSplit | src/Algorithms/Slugify.php:20-21 | `implode(d, explode(c, s))` is `s` with every `c` replaced by `d` |
| Strings.SplitJoin | src/PatternMatching/functions.php:73 | `explode` undoes `implode` when no piece holds the separator |
| PartialLeft.PartialLeft | src/Algorithms/PartialLeft.php:16-19 | the bound arguments come first, the supplied ones after |
| PartialLeft.Partial | src/Algorithms/PartialLeft.php:23-26 | `partial` makes the same call as `partialLeft` |
| PartialLeft.PartialLeftNothingBound | src/Algorithms/PartialLeft.php:16-19 | with nothing bound, the arguments are forwarded unchanged |
| PartialLeft.PartialLeftTwice | src/Algorithms/PartialLeft.php:16-18 | binding in two steps is binding the concatenation |
| PartialRight.PartialRight | src/Algorithms/PartialRight.php:16-19 | the whole merged list is reversed: the supplied arguments arrive first and the bound ones last, each group reversed |
| PartialRight.PartialRightOneOne | src/PatternMatching/functions.php:32 | one bound `x` and one supplied `y` give `f(y, x)`, the `array_filter` call `match` relies on |
| PartialRight.PartialRightIsFlip | src/Algorithms/PartialRight.php:16-19 | with nothing bound, `partialRight` is `flip` |
| Flip.Flip | src/Algorithms/Flip.php:8-18 | `flip(f)` calls `f` with the whole argument list reversed, whatever its length, so `flip(f)(x, y, z)` is `f(z, y, x)`; in particular `flip(f)(a, b)` is `f(b, a)` |
| Flip.FlipFlip | src/Algorithms/Flip.php:18 | flipping twice agrees with the original on every argument list |
| Flip.FlipShort | src/Algorithms/Flip.php:16-19 | zero or one argument reaches the function unchanged |
| StateMonad.Of | src/Functors/Monads/State.php:38-41 | `of(v)` yields `v` and leaves the state alone, from every state |
| StateMonad.Bind | src/Functors/Monads/State.php:62-69 | `bind(f)` runs the computation, then `f`'s computation from the state it left |
| StateMonad.Map | src/Functors/Monads/State.php:78-81 | `map(f)`, a bind into `of`, applies `f` to the value and keeps the state the computation left |
| StateMonad.Ap | src/Functors/Monads/State.php:50-53 | `ap` runs the function's computation first, and the argument's from the state it left |
| StateMonad.LeftIdentity | src/Functors/Monads/State.php:38-69 | `of(a)->bind(f)` runs like `f(a)` |
| StateMonad.RightIdentity | src/Functors/Monads/State.php:40-68 | `m->bind(of)` runs like `m` |
| StateMonad.Associativity | src/Functors/Monads/State.php:64-68 | `bind` is associative under run-equivalence |
| ReaderMonad.Ask | src/Functors/Monads/Reader.php:78-93 | `ask()` returns the action `run($env)` applies: `run($env)` is `ask()($env)` |
| ReaderMonad.Of | src/Functors/Monads/Reader.php:40-43 | `of` on a plain value ignores the environment; on a callable it calls it with the environment |
| ReaderMonad.Bind | src/Functors/Monads/Reader.php:68-71 | `bind(f)` gives the same environment to the reader and to the one `f` builds |
| ReaderMonad.Map | src/Functors/Monads/Reader.php:60-63 | `map(f)`, a bind into `of`, applies `f` to the value read; a callable result is itself applied to the environment |
| ReaderMonad.Ap | src/Functors/Monads/Reader.php:48-51 | `ap` applies the function read by one reader to the value read by the other, in the same environment |
| ReaderMonad.LeftIdentity | src/Functors/Monads/Reader.php:42-70 | `of(a)->bind(f)` runs like `f(a)` for a plain `a` |
| ReaderMonad.RightIdentity | src/Functors/Monads/Reader.php:40-71 | `m->bind(of)` runs like `m` when `m` reads plain values |
| ReaderMonad.Associativity | src/Functors/Monads/Reader.php:70 | `bind` is associative under run-equivalence |
| ListMonadModel.Flatten | src/Functors/Monads/ListMonad.php:123 | the flattened list holds no arrays, holds exactly the non-array leaves reachable through nested arrays, and a flat list is its own flattening |
| ListMonadModel.FlattenAppend | src/Functors/Monads/ListMonad.php:84-87 | flattening distributes over the `array_merge` `bind` performs |
| ListMonadModel.FlattenSplice | src/Functors/Monads/ListMonad.php:84-87 | a nested array is spliced in place: its flattened elements stand between those of its neighbours, in order |
| ListMonadModel.FlattenIdempotent | src/Functors/Monads/ListMonad.php:87 | flattening twice is flattening once, so `extract` after `bind` flattens nothing more |
| ListMonadModel.Of | src/Functors/Monads/ListMonad.php:40-43 | an array is wrapped as it is, anything else as a one-element list |
| ListMonadModel.Extract | src/Functors/Monads/ListMonad.php:121-124 | the extracted list is flat, holds exactly the leaves of the collection (nested elements survive), and equals the collection when that is flat |
| ListMonadModel.ExtractOf | src/Functors/Monads/ListMonad.php:42 | `of(x)->extract()` is `x` flattened |
| ListMonadModel.Bind | src/Functors/Monads/ListMonad.php:76-88 | `bind(f)` keeps the flattened original elements in front of what `f` makes of each element, extracted, in order |
| ListMonadModel.Map | src/Functors/Monads/ListMonad.php:97-100 | `map(f)` is flat: the flattened original list followed by the flattened list of `f`'s images, one per element in order |
| ListMonadModel.ConcatImagesOfValues | src/Functors/Monads/ListMonad.php:76-100 | binding into `of` after `f` contributes exactly the flattened list of `f`'s images |
| ListMonadModel.MapFlat | src/Functors/Monads/ListMonad.php:97-100 | on a flat list with non-array images, `map(f)` is the list followed by the images, twice as long |
| ListMonadModel.FlatMap | src/Functors/Monads/ListMonad.php:109-114 | `flatMap(f)`, which extracts after `map(f)`, flattens nothing further: it is exactly the collection `map(f)` holds |
| MaybeFunctor.FromValue | src/Functors/Maybe/Maybe.php:67-70 | `Nothing` exactly when the value is identical to the sentinel, `Just` of the value otherwise |
| MaybeFunctor.FromValueNull | src/Functors/Maybe/Maybe.php:67-69 | with the default sentinel, `Nothing` exactly for `null` |
| MaybeFunctor.FoldStatusAllJust | src/Functors/Maybe/Maybe.php:83-87 | the status fold is true exactly when every argument is a `Just` |
| MaybeFunctor.Lift | src/Functors/Maybe/Maybe.php:79-98 | `Nothing` exactly when some argument is `Nothing`; otherwise `Just` of the function on the unwrapped values, in order |
| MaybeFunctor.LiftNoArguments | src/Functors/Maybe/Maybe.php:83-94 | with no arguments the seed `true` survives, giving `Just(fn())` |
| MaybeFunctor.LiftOneNothing | src/Functors/Maybe/Maybe.php:84-97 | one `Nothing` anywhere gives `Nothing` |
| MaybeFunctor.LiftJusts | src/Functors/Maybe/Maybe.php:89-94 | lifting over `Just`s applies the function to the wrapped values |
| PhpValue.TruthyIffTextNotEmpty | src/PatternMatching/functions.php:230 | a scalar is truthy exactly when its text is not `empty()`, so a truthy subject never takes the empty-subject shortcut |

## Left out

- IO effects: `src/Functors/Monads/IO.php`. Its operations run the stored callable immediately, so there is nothing left to verify.
- The generic monad helpers: `src/Functors/Monads/functions.php`. They dispatch on a runtime class (`$monad::of`), which needs higher-kinded types. They are not part of this model.
- `src/Algorithms/Min.php`: a floating-point fold. Floats are outside the model.
- `ListMonad::ap`: it depends on `mapDeep`, which is not part of this model. Elements of the list monad are flattened to full depth.
- The library helpers the matchers are composed from: `filter`, `map`, `fold`, `head`, `indexOf`, `concat`, `flatten` and `compose`. They appear through their effect:
  - `filter` is an order-preserving filter;
  - `indexOf` is the first occurrence;
  - `head` is the first element. On `[]` the model takes `head` to give a value that `fn(string $match)` (src/PatternMatching/functions.php:275) accepts and `empty()` treats as empty, such as `reset`'s `false`, which becomes `""`; so a class no key spells reaches `_` (`ObjectPattern.UnknownClass`). `head`'s own source is not part of this model; were it `null`, PHP 8 would throw a TypeError at that closure instead;
  - `concat` is `implode`;
  - `flatten` flattens to full depth.
- PHP's loose comparison `==`: numeric strings, `in_array` and `array_intersect_assoc`'s string casts. Elements are compared by exact text. Only the `empty()` rule for `""` and `"0"` is kept.
- Integer width: integers are unbounded, not 64-bit.
- Floating-point subjects and keys.
- The runtime class registry (`class_exists`, `get_class`): an object is its class name.
- Object identity.
- The `isArrayOf` guard on non-closure handlers: every handler is assumed to be a closure.
- `\Closure`-typed properties of `State` and `Reader`: computations are Dafny functions.
- The `explode(', ')` step of the list parser: it runs after every space has been deleted, so it never splits.
- The string-constant function aliases (`const match = ...`): they carry no behaviour.
- The `Maybe::lift` stray argument to `func_get_args($fn)`: the model takes the variadic reading, one `Maybe` per argument.
- ValueMatch.PatternMatch: requires a truthy subject, and list subjects whose elements are booleans, integers, strings or `null`. A falsy subject compares equal to `false` in the `switch` and reaches `get_class`, which fails. Nested lists and objects as list elements are left out: `array_intersect_assoc` casts every element to a string, which fails for an object and gives `"Array"` with a warning for an array, and `==` compares them loosely. Both fall under the loose comparisons left out above.
- FromPairs.FromPairs: requires that the first element of every pair can be an array key. An array or object there makes PHP throw a TypeError when it builds `[$key => $val]` (src/Algorithms/FromPairs.php:15); the model leaves that error path out and requires such keys absent.
- ArrayPattern.EvalArray: requires elements that are booleans, integers, strings or `null`, compared by their string form (`null` as `""`). Nested lists and objects as elements are left out, for the reason given for `ValueMatch.PatternMatch`.
- ArrayPattern.NameOracle: like the other list-test oracles (`LiteralsOracle`, `NameAfterPairOracle`, `WildcardThenLiteral`, `WildcardInside`), it is stated over any words and over keys whose parsed tokens are given. Separate lemmas (`LiteralKeysParse`, `WildcardLiteralParse`, `WildcardInsideParse`) show that the keys as written parse to those tokens.
- LetBinding.Resolve: a failing lookup or an empty name gives `None` instead of PHP's error.
- ReaderMonad.RightIdentity: stated for readers whose values are plain. A callable value would be applied again by `of`.

=== FILE: any.dfy ===
/** `any($collection, $func)` (src/Algorithms/Any.php): filter the collection
    with the predicate and test that at least one element was kept. */
module Any {
  import opened Sequences
  import Every

  function Any<T>(c: seq<T>, f: T -> bool): (r: bool)
    ensures r <==> exists i | 0 <= i < |c| :: f(c[i])
  {
    var kept := Filter(c, f);
    FilterMembers(c, f);
    assert |kept| >= 1 ==> exists i | 0 <= i < |c| :: f(c[i]) by {
      if |kept| >= 1 {
        var i :| 0 <= i < |c| && c[i] == kept[0];
      }
    }
    |kept| >= 1
  }

  /** Appending an element never turns a `true` answer into `false`. */
  lemma AnyGrows<T>(c: seq<T>, x: T, f: T -> bool)
    ensures Any(c, f) ==> Any(c + [x], f)
  {
    if Any(c, f) {
      var i :| 0 <= i < |c| && f(c[i]);
      assert (c + [x])[i] == c[i];
    }
  }

  /** On a non-empty collection, `every` implies `any`. */
  lemma EveryImpliesAny<T>(c: seq<T>, f: T -> bool)
    requires |c| > 0
    ensures Every.Every(c, f) ==> Any(c, f)
  {
  }
}

=== FILE: array_pattern.dfy ===
/** List patterns (src/PatternMatching/functions.php, `evalArrayPattern`):
    keys written `[t1, t2, ...]` are matched against a list subject position
    by position. A token holding `"` is a literal; any other token, `_`
    included, is a name that hands the subject element at its position to the
    handler. */
module ArrayPattern {
  import opened Optional
  import opened PhpValue
  import opened PhpArray
  import opened Strings
  import opened PatternSet

  /** Keys the matcher considers: those starting with `[` and ending with `]`. */
  predicate IsListKey(k: Key)
  {
    k.StrK? && |k.s| >= 1 && k.s[0] == '[' && k.s[|k.s| - 1] == ']'
  }

  /** How the parser stores a token: a literal loses its quotes and gains a
      leading `*`; anything else is kept as written. */
  function Mark(t: string): (m: string)
    ensures '"' !in m
    ensures '"' in t ==> |m| >= 1 && m[0] == '*'
    ensures '"' !in t ==> m == t
  {
    if '"' in t then "*" + DeleteAll(t, '"') else t
  }

  /** The key text with every `[`, `]` and space deleted. The subsequent
      split on `", "` cannot find its separator any more, so it leaves the
      text whole. */
  function Inner(s: string): string
  {
    DeleteAll(DeleteAll(DeleteAll(s, '['), ']'), ' ')
  }

  /** The parsed tokens of a list key: the comma-separated pieces of its inner
      text, literals marked. There is always at least one. */
  function Tokens(s: string): (toks: seq<string>)
    ensures |toks| == |Split(Inner(s), ',')| >= 1
    ensures forall i | 0 <= i < |toks| :: toks[i] == Mark(Split(Inner(s), ',')[i])
  {
    var parts := Split(Inner(s), ',');
    seq(|parts|, i requires 0 <= i < |parts| => Mark(parts[i]))
  }

  /** A token with its literal marker deleted, as it is compared. */
  function Bare(t: string): string
  {
    DeleteAll(t, '*')
  }

  /** A subject element compared by its string form: a scalar, or `null`,
      which `array_intersect_assoc` casts to `""` and which `==` against a
      string token compares as `""` too. */
  predicate IsElement(v: Value)
  {
    IsScalar(v) || v.Null?
  }

  /** The string form of a subject element. */
  function ElementText(v: Value): string
    requires IsElement(v)
  {
    if v.Null? then "" else Text(v)
  }

  /** Position `i` agrees when the token, without marker, is the subject
      element's string form. */
  predicate Agrees(toks: seq<string>, comp: seq<Value>, i: nat)
    requires i < |toks| && i < |comp|
  {
    IsElement(comp[i]) && Bare(toks[i]) == ElementText(comp[i])
  }

  /** Some position among the first `n` agrees: the filtered comparison is
      non-empty. */
  predicate AgreesSomewhere(toks: seq<string>, comp: seq<Value>, n: nat)
    requires n <= |toks| <= |comp|
  {
    n > 0 && (Agrees(toks, comp, n - 1) || AgreesSomewhere(toks, comp, n - 1))
  }

  /** Every one of the first `n` positions agrees. */
  predicate AgreesEverywhere(toks: seq<string>, comp: seq<Value>, n: nat)
    requires n <= |toks| <= |comp|
  {
    n == 0 || (Agrees(toks, comp, n - 1) && AgreesEverywhere(toks, comp, n - 1))
  }

  /** Some token among the first `n` is `_` once its marker is deleted. */
  predicate HasWildcard(toks: seq<string>, n: nat)
    requires n <= |toks|
  {
    n > 0 && (Bare(toks[n - 1]) == "_" || HasWildcard(toks, n - 1))
  }

  /** The survival test of a same-length candidate: some position agrees and
      either the tokens hold `_` and the last position agrees, or the last
      token is a plain name (no `*`, no `_`); or else every position agrees
      (`SurvivesSpec` states it with quantifiers). */
  predicate Survives(toks: seq<string>, comp: seq<Value>)
    requires |toks| == |comp| >= 1
  {
    var n := |toks| - 1;
    var some := AgreesSomewhere(toks, comp, |toks|);
    || (some && HasWildcard(toks, |toks|) && Agrees(toks, comp, n))
    || (some && '*' !in toks[n] && '_' !in toks[n])
    || AgreesEverywhere(toks, comp, |toks|)
  }

  lemma {:induction false} AgreesSomewhereIff(toks: seq<string>, comp: seq<Value>, n: nat)
    requires n <= |toks| <= |comp|
    ensures AgreesSomewhere(toks, comp, n) <==> exists i | 0 <= i < n :: Agrees(toks, comp, i)
  {
    if n > 0 {
      AgreesSomewhereIff(toks, comp, n - 1);
    }
  }

  lemma {:induction false} AgreesEverywhereIff(toks: seq<string>, comp: seq<Value>, n: nat)
    requires n <= |toks| <= |comp|
    ensures AgreesEverywhere(toks, comp, n) <==> forall i | 0 <= i < n :: Agrees(toks, comp, i)
  {
    if n > 0 {
      AgreesEverywhereIff(toks, comp, n - 1);
      if AgreesEverywhere(toks, comp, n) {
        forall i | 0 <= i < n ensures Agrees(toks, comp, i) {
          if i < n - 1 {
            assert AgreesEverywhere(toks, comp, n - 1);
          }
        }
      }
    }
  }

  lemma {:induction false} HasWildcardIff(toks: seq<string>, n: nat)
    requires n <= |toks|
    ensures HasWildcard(toks, n) <==> exists i | 0 <= i < n :: Bare(toks[i]) == "_"
  {
    if n > 0 {
      HasWildcardIff(toks, n - 1);
    }
  }

  /** The survival test, position by position, is the declarative one. */
  lemma SurvivesSpec(toks: seq<string>, comp: seq<Value>)
    requires |toks| == |comp| >= 1
    ensures Survives(toks, comp) <==>
      var n := |toks| - 1;
      var some := exists i | 0 <= i < |toks| :: Agrees(toks, comp, i);
      || (some && (exists i | 0 <= i < |toks| :: Bare(toks[i]) == "_") && Agrees(toks, comp, n))
      || (some && '*' !in toks[n] && '_' !in toks[n])
      || (forall i | 0 <= i < |toks| :: Agrees(toks, comp, i))
  {
    AgreesSomewhereIff(toks, comp, |toks|);
    AgreesEverywhereIff(toks, comp, |toks|);
    HasWildcardIff(toks, |toks|);
  }

  /** A key that is a list key, has as many tokens as the subject has
      elements, and survives. */
  predicate Candidate(k: Key, comp: seq<Value>)
  {
    && IsListKey(k)
    && |Tokens(k.s)| == |comp|
    && Survives(Tokens(k.s), comp)
  }

  /** `Candidate` as a filter over keys. */
  function CandidateFor(comp: seq<Value>): Key -> bool
  {
    k => Candidate(k, comp)
  }

  /** Tokens that hand over a subject element: neither `"` nor `*` in them. */
  predicate Binds(t: string)
  {
    '"' !in t && '*' !in t
  }

  /** `indexOf`: the first position of `t`. */
  function FirstIndex(toks: seq<string>, t: string): (i: nat)
    requires t in toks
    ensures i < |toks| && toks[i] == t
    ensures forall j | 0 <= j < i :: toks[j] != t
  {
    if toks[0] == t then 0 else 1 + FirstIndex(toks[1..], t)
  }

  /** Handler arguments from the first `n` tokens: for each binding token,
      left to right, the subject element at the token's first occurrence in
      the whole key. */
  function ArgsUpTo(toks: seq<string>, comp: seq<Value>, n: nat): (args: seq<Value>)
    requires n <= |toks| <= |comp|
    ensures |args| <= n
  {
    if n == 0 then []
    else
      var t := toks[n - 1];
      ArgsUpTo(toks, comp, n - 1)
        + (if Binds(t) then [comp[FirstIndex(toks, t)]] else [])
  }

  /** The arguments the winning key's handler receives. */
  function Args(toks: seq<string>, comp: seq<Value>): (args: seq<Value>)
    requires |toks| <= |comp|
    ensures |args| <= |toks|
  {
    ArgsUpTo(toks, comp, |toks|)
  }

  /** The arguments a key would hand its handler; only candidates, whose
      token count is the subject's length, are ever asked. */
  function ArgsFor(comp: seq<Value>): Key -> seq<Value>
  {
    k => if IsListKey(k) && |Tokens(k.s)| <= |comp| then Args(Tokens(k.s), comp) else []
  }

  /** `evalArrayPattern($patterns, $comp)` on a list of scalars and nulls:
      the first candidate in declaration order is called with its arguments; with no
      candidate, `_` is called with none (`EvalArrayChoice`). */
  function EvalArray<H>(ps: PArray<H>, comp: seq<Value>): (r: Outcome)
    requires forall i | 0 <= i < |comp| :: IsElement(comp[i])
    ensures !r.ReturnsFalse?
    ensures r.NoHandler? <==> r == NoHandler(Wildcard)
    ensures r.Invoke? ==> IsListKey(r.key) || r == Invoke(Wildcard, [])
  {
    FirstMatch(ps, CandidateFor(comp), ArgsFor(comp), 0)
  }

  /** The key called is the first candidate, with the arguments its tokens
      bind; `_` is reached exactly when no key is a candidate. */
  lemma EvalArrayChoice<H>(ps: PArray<H>, comp: seq<Value>)
    requires forall i | 0 <= i < |comp| :: IsElement(comp[i])
    ensures EvalArray(ps, comp).Invoke? && EvalArray(ps, comp).key != Wildcard ==>
      && Candidate(EvalArray(ps, comp).key, comp)
      && EvalArray(ps, comp).args == Args(Tokens(EvalArray(ps, comp).key.s), comp)
      && exists i | 0 <= i < |ps| :: ps[i].key == EvalArray(ps, comp).key && forall j | 0 <= j < i :: !Candidate(ps[j].key, comp)
    ensures (exists i | 0 <= i < |ps| :: Candidate(ps[i].key, comp)) ==> EvalArray(ps, comp).Invoke? && EvalArray(ps, comp).key != Wildcard
    ensures (forall i | 0 <= i < |ps| :: !Candidate(ps[i].key, comp)) ==> EvalArray(ps, comp) == Select(ps, Wildcard, [])
  {
    FirstMatchSpec(ps, CandidateFor(comp), ArgsFor(comp), 0);
  }

  /** An empty subject always reaches `_`: every list key has a token. */
  lemma EmptySubject<H>(ps: PArray<H>)
    ensures EvalArray(ps, []) == Select(ps, Wildcard, [])
  {
    EvalArrayChoice(ps, []);
    forall i | 0 <= i < |ps| ensures !Candidate(ps[i].key, []) {
      if IsListKey(ps[i].key) {
        assert |Tokens(ps[i].key.s)| >= 1;
      }
    }
  }

  /** A key whose token count differs from the subject's length is never
      chosen. */
  lemma LengthMismatch(k: Key, comp: seq<Value>)
    requires IsListKey(k) && |Tokens(k.s)| != |comp|
    ensures !Candidate(k, comp)
  {
  }

  /** Names carry no weight in the survival test: a key whose tokens are all
      names that differ from the subject texts at their positions never
      survives, although every name would accept any value. */
  lemma PureNamesNeedAnAgreement(toks: seq<string>, comp: seq<Value>)
    requires |toks| == |comp| >= 1
    requires forall i | 0 <= i < |toks| :: !Agrees(toks, comp, i)
    ensures !Survives(toks, comp)
  {
    SurvivesSpec(toks, comp);
  }

  /** A literal that disagrees with its element does not by itself reject a
      candidate: agreeing somewhere and ending in a plain name suffices. */
  lemma MismatchTolerated(toks: seq<string>, comp: seq<Value>, i: nat)
    requires |toks| == |comp| >= 1 && i < |toks|
    requires Agrees(toks, comp, i)
    requires '*' !in toks[|toks| - 1] && '_' !in toks[|toks| - 1]
    ensures Survives(toks, comp)
  {
    SurvivesSpec(toks, comp);
  }

  /** The binding tokens, left to right. */
  function BindingPositions(toks: seq<string>, n: nat): (ps: seq<nat>)
    requires n <= |toks|
    ensures forall j | 0 <= j < |ps| :: ps[j] < n && Binds(toks[ps[j]])
  {
    if n == 0 then []
    else BindingPositions(toks, n - 1) + (if Binds(toks[n - 1]) then [n - 1] else [])
  }

  /** One argument per binding token, in order, each the subject element at
      the first occurrence of that token; literals contribute nothing. */
  lemma {:induction false} ArgsPerBinding(toks: seq<string>, comp: seq<Value>, n: nat)
    requires n <= |toks| <= |comp|
    ensures |ArgsUpTo(toks, comp, n)| == |BindingPositions(toks, n)|
    ensures forall j | 0 <= j < |ArgsUpTo(toks, comp, n)| ::
      ArgsUpTo(toks, comp, n)[j] == comp[FirstIndex(toks, toks[BindingPositions(toks, n)[j]])]
  {
    if n > 0 {
      ArgsPerBinding(toks, comp, n - 1);
    }
  }

  /** Distinct binding tokens hand over exactly the elements at their own
      positions; with every token binding, the handler receives the whole
      subject in order. */
  lemma {:induction false} DistinctNamesBindPositionally(toks: seq<string>, comp: seq<Value>, n: nat)
    requires n <= |toks| <= |comp|
    requires forall i, j | 0 <= i < j < |toks| :: toks[i] != toks[j]
    requires forall i | 0 <= i < |toks| :: Binds(toks[i])
    ensures ArgsUpTo(toks, comp, n) == comp[..n]
  {
    if n > 0 {
      DistinctNamesBindPositionally(toks, comp, n - 1);
      var i := FirstIndex(toks, toks[n - 1]);
      assert i == n - 1;
      assert comp[..n] == comp[..n - 1] + [comp[n - 1]];
    }
  }

  /** A repeated name is bound to the element at its first occurrence. */
  lemma RepeatedNameBindsFirst(a: string, comp: seq<Value>)
    requires Binds(a) && |comp| >= 2
    ensures Args([a, a], comp) == [comp[0], comp[0]]
  {
    var toks := [a, a];
    assert FirstIndex(toks, a) == 0;
    assert ArgsUpTo(toks, comp, 1) == [comp[0]];
  }

  /** `[i1, i2, ...]`: how list keys are written, elements separated by
      `", "`. */
  function ListBody(items: seq<string>): string
  {
    if |items| == 0 then ""
    else if |items| == 1 then items[0]
    else items[0] + ", " + ListBody(items[1..])
  }

  function ListKey(items: seq<string>): Key
  {
    StrK("[" + ListBody(items) + "]")
  }

  /** Items the key syntax can hold unchanged. */
  predicate PlainItem(t: string)
  {
    '[' !in t && ']' !in t && ' ' !in t && ',' !in t
  }

  /** Deleting a character absent from the items leaves the body alone. */
  lemma {:induction false} ListBodyKeeps(items: seq<string>, c: char)
    requires c != ',' && c != ' '
    requires forall i | 0 <= i < |items| :: c !in items[i]
    ensures DeleteAll(ListBody(items), c) == ListBody(items)
  {
    if |items| == 1 {
      DeleteAllAbsent(items[0], c);
    } else if |items| > 1 {
      ListBodyKeeps(items[1..], c);
      DeleteAllAbsent(items[0], c);
      var sep := ", ";
      assert DeleteAll(sep, c) == sep by {
        assert sep == [','] + [' '];
        assert sep[1..] == [' '] && sep[1..][1..] == [];
      }
      DeleteAllAppend(items[0], sep, c);
      DeleteAllAppend(items[0] + sep, ListBody(items[1..]), c);
    }
  }

  /** Deleting the spaces of the body leaves the items joined by `,`. */
  lemma {:induction false} ListBodySpaces(items: seq<string>)
    requires forall i | 0 <= i < |items| :: ' ' !in items[i]
    ensures DeleteAll(ListBody(items), ' ') == Join(items, ',')
  {
    if |items| == 1 {
      DeleteAllAbsent(items[0], ' ');
    } else if |items| > 1 {
      ListBodySpaces(items[1..]);
      DeleteAllAbsent(items[0], ' ');
      var sep := ", ";
      assert DeleteAll(sep, ' ') == [','] by {
        assert sep[1..] == [' '] && sep[1..][1..] == [];
      }
      DeleteAllAppend(items[0], sep, ' ');
      DeleteAllAppend(items[0] + sep, ListBody(items[1..]), ' ');
    }
  }

  /** Parsing a key written in the list syntax gives back its items, literals
      marked. */
  lemma TokensOfListKey(items: seq<string>)
    requires |items| >= 1
    requires forall i | 0 <= i < |items| :: PlainItem(items[i])
    ensures IsListKey(ListKey(items))
    ensures Tokens(ListKey(items).s) == seq(|items|, i requires 0 <= i < |items| => Mark(items[i]))
  {
    var body := ListBody(items);
    var open, close := "[", "]";
    ListBodyKeeps(items, '[');
    ListBodyKeeps(items, ']');
    ListBodySpaces(items);
    assert DeleteAll(open, '[') == [] by { assert open[1..] == []; }
    assert DeleteAll(close, '[') == close by { assert close[1..] == []; }
    assert DeleteAll(close, ']') == [] by { assert close[1..] == []; }
    assert ListKey(items).s == open + (body + close);
    DeleteAllAppend(open, body + close, '[');
    DeleteAllAppend(body, close, '[');
    assert DeleteAll(ListKey(items).s, '[') == body + close;
    DeleteAllAppend(body, close, ']');
    assert body + [] == body;
    assert DeleteAll(body + close, ']') == body;
    assert Inner(ListKey(items).s) == Join(items, ',');
    SplitJoin(items, ',');
  }

  /** A quoted word is a literal token for that word. */
  lemma MarkQuote(w: string)
    requires '"' !in w && '*' !in w
    ensures Mark(Quote(w)) == "*" + w
    ensures Bare(Mark(Quote(w))) == w
    ensures !Binds(Mark(Quote(w)))
  {
    UnquoteQuote(w);
    var star := "*";
    assert DeleteAll(star, '*') == [] by { assert star[1..] == []; }
    DeleteAllAppend(star, w, '*');
    DeleteAllAbsent(w, '*');
  }

  /** A word without special characters, usable as a literal or a name. */
  predicate Word(w: string)
  {
    PlainItem(w) && '"' !in w && '*' !in w && '_' !in w
  }

  lemma WordQuoted(w: string)
    requires Word(w)
    ensures PlainItem(Quote(w))
  {
    assert Quote(w) == ['"'] + w + ['"'];
  }

  /** The first candidate in declaration order is the one called. */
  lemma Chosen<H>(ps: PArray<H>, comp: seq<Value>, i: nat)
    requires forall j | 0 <= j < |comp| :: IsElement(comp[j])
    requires i < |ps| && Candidate(ps[i].key, comp)
    requires forall j | 0 <= j < i :: !Candidate(ps[j].key, comp)
    ensures EvalArray(ps, comp) == Invoke(ps[i].key, Args(Tokens(ps[i].key.s), comp))
  {
    FirstMatchAt(ps, CandidateFor(comp), ArgsFor(comp), 0, i);
  }

  /** A list key is a candidate once its tokens are known to survive. */
  lemma CandidateByTokens(k: Key, comp: seq<Value>, toks: seq<string>)
    requires IsListKey(k) && Tokens(k.s) == toks
    requires |toks| == |comp| >= 1 && Survives(toks, comp)
    ensures Candidate(k, comp)
  {
  }

  /** Two literal tokens matched by a two-element subject: all positions
      agree, no arguments. */
  lemma TwoLiteralsSurvive(a: string, b: string)
    requires Word(a) && Word(b)
    ensures Survives(["*" + a, "*" + b], [Str(a), Str(b)])
    ensures Args(["*" + a, "*" + b], [Str(a), Str(b)]) == []
  {
    MarkQuote(a);
    MarkQuote(b);
    var t, comp := ["*" + a, "*" + b], [Str(a), Str(b)];
    assert Agrees(t, comp, 0) && Agrees(t, comp, 1);
    assert AgreesEverywhere(t, comp, 1);
    assert !Binds(t[0]) && !Binds(t[1]);
    assert ArgsUpTo(t, comp, 1) == [];
  }

  /** Two literal tokens and a trailing name: agreeing on the first literal
      and ending in a name survives, and the name receives the last element. */
  lemma LiteralsNameSurvive(a: string, b: string, x: string, y: string)
    requires Word(a) && Word(b) && Word(x)
    ensures Survives(["*" + a, "*" + b, x], [Str(a), Str(b), Str(y)])
    ensures Args(["*" + a, "*" + b, x], [Str(a), Str(b), Str(y)]) == [Str(y)]
  {
    MarkQuote(a);
    MarkQuote(b);
    var t, comp := ["*" + a, "*" + b, x], [Str(a), Str(b), Str(y)];
    assert Agrees(t, comp, 0);
    assert !Binds(t[0]) && !Binds(t[1]) && Binds(t[2]);
    assert FirstIndex(t, x) == 2;
    assert ArgsUpTo(t, comp, 2) == [];
  }

  /** A `null` element is handled like any other: after an agreeing literal,
      a trailing name survives and receives the `null`. */
  lemma NullElementBinds(a: string, x: string)
    requires Word(a) && Word(x)
    ensures Survives(["*" + a, x], [Str(a), Null])
    ensures Args(["*" + a, x], [Str(a), Null]) == [Null]
  {
    MarkQuote(a);
    var t, comp := ["*" + a, x], [Str(a), Null];
    assert Agrees(t, comp, 0);
    assert !Binds(t[0]) && Binds(t[1]);
    assert FirstIndex(t, x) == 1;
    assert ArgsUpTo(t, comp, 1) == [];
  }

  /** A candidate first key is the one called. */
  lemma FirstChosen<H>(ps: PArray<H>, comp: seq<Value>, args: seq<Value>)
    requires forall j | 0 <= j < |comp| :: IsElement(comp[j])
    requires |ps| >= 1 && Candidate(ps[0].key, comp) && Args(Tokens(ps[0].key.s), comp) == args
    ensures EvalArray(ps, comp) == Invoke(ps[0].key, args)
  {
    FirstMatchAt(ps, CandidateFor(comp), ArgsFor(comp), 0, 0);
  }

  /** A first key whose tokens survive the subject is the one called. */
  lemma FirstChosenByTokens<H>(ps: PArray<H>, comp: seq<Value>, toks: seq<string>, args: seq<Value>)
    requires forall j | 0 <= j < |comp| :: IsElement(comp[j])
    requires |ps| >= 1 && IsListKey(ps[0].key) && Tokens(ps[0].key.s) == toks
    requires |toks| == |comp| >= 1 && Survives(toks, comp) && Args(toks, comp) == args
    ensures EvalArray(ps, comp) == Invoke(ps[0].key, args)
  {
    CandidateByTokens(ps[0].key, comp, toks);
    FirstChosen(ps, comp, args);
  }

  /** Behind a first key of the wrong length, a candidate second key is the
      one called. */
  lemma SecondChosen<H>(ps: PArray<H>, comp: seq<Value>, args: seq<Value>)
    requires forall j | 0 <= j < |comp| :: IsElement(comp[j])
    requires |ps| >= 2 && IsListKey(ps[0].key) && |Tokens(ps[0].key.s)| != |comp|
    requires Candidate(ps[1].key, comp) && Args(Tokens(ps[1].key.s), comp) == args
    ensures EvalArray(ps, comp) == Invoke(ps[1].key, args)
  {
    FirstMatchSkip(ps, CandidateFor(comp), ArgsFor(comp), 0);
    FirstMatchAt(ps, CandidateFor(comp), ArgsFor(comp), 1, 1);
  }

  /** A key parsing as `["a", "b"]` is a candidate for `[a, b]` and takes no
      arguments. */
  lemma TwoLiteralsKey(k: Key, a: string, b: string)
    requires Word(a) && Word(b)
    requires IsListKey(k) && Tokens(k.s) == ["*" + a, "*" + b]
    ensures Candidate(k, [Str(a), Str(b)]) && Args(Tokens(k.s), [Str(a), Str(b)]) == []
  {
    TwoLiteralsSurvive(a, b);
    CandidateByTokens(k, [Str(a), Str(b)], ["*" + a, "*" + b]);
  }

  /** A key parsing as `["a", "b", x]` is a candidate for `[a, b, y]` and
      takes `y`. */
  lemma LiteralsNameKey(k: Key, a: string, b: string, x: string, y: string)
    requires Word(a) && Word(b) && Word(x)
    requires IsListKey(k) && Tokens(k.s) == ["*" + a, "*" + b, x]
    ensures Candidate(k, [Str(a), Str(b), Str(y)]) && Args(Tokens(k.s), [Str(a), Str(b), Str(y)]) == [Str(y)]
  {
    LiteralsNameSurvive(a, b, x, y);
    CandidateByTokens(k, [Str(a), Str(b), Str(y)], ["*" + a, "*" + b, x]);
  }

  /** The library's first list test, over any words: with keys parsing as
      `["a", "b", x]`, `["a", "b"]` and `_` in that order, `[a, b]` selects
      the second with no arguments, ... */
  lemma LiteralsOracle<H>(ps: PArray<H>, k1: Key, k2: Key, a: string, b: string)
    requires Word(a) && Word(b)
    requires |ps| == 3 && ps[0].key == k1 && ps[1].key == k2
    requires IsListKey(k1) && |Tokens(k1.s)| == 3
    requires IsListKey(k2) && Tokens(k2.s) == ["*" + a, "*" + b]
    ensures EvalArray(ps, [Str(a), Str(b)]) == Invoke(k2, [])
  {
    var comp := [Str(a), Str(b)];
    TwoLiteralsKey(k2, a, b);
    SecondChosen(ps, comp, []);
  }

  /** ... `[a, b, y]` selects the first and hands it `y`, ... */
  lemma NameOracle<H>(ps: PArray<H>, k1: Key, a: string, b: string, x: string, y: string)
    requires Word(a) && Word(b) && Word(x)
    requires |ps| == 3 && ps[0].key == k1
    requires IsListKey(k1) && Tokens(k1.s) == ["*" + a, "*" + b, x]
    ensures EvalArray(ps, [Str(a), Str(b), Str(y)]) == Invoke(k1, [Str(y)])
  {
    LiteralsNameKey(k1, a, b, x, y);
    FirstChosen(ps, [Str(a), Str(b), Str(y)], [Str(y)]);
  }

  /** With the keys the other way round, a two-token key first, `[a, b, y]`
      still reaches the key parsing as `["a", "b", x]`. */
  lemma NameAfterPairOracle<H>(ps: PArray<H>, k1: Key, k2: Key, a: string, b: string, x: string, y: string)
    requires Word(a) && Word(b) && Word(x)
    requires |ps| == 3 && ps[0].key == k1 && ps[1].key == k2
    requires IsListKey(k1) && |Tokens(k1.s)| == 2
    requires IsListKey(k2) && Tokens(k2.s) == ["*" + a, "*" + b, x]
    ensures EvalArray(ps, [Str(a), Str(b), Str(y)]) == Invoke(k2, [Str(y)])
  {
    var comp := [Str(a), Str(b), Str(y)];
    LiteralsNameKey(k2, a, b, x, y);
    SecondChosen(ps, comp, [Str(y)]);
  }

  /** ... and `[]` selects `_`. */
  lemma EmptyOracle<H>(ps: PArray<H>)
    requires |ps| == 3 && ps[2].key == Wildcard
    ensures EvalArray(ps, []) == Invoke(Wildcard, [])
  {
    EmptySubject(ps);
    assert FindKey(ps, Wildcard).Some?;
  }

  /** The keys of the first list test, written out, parse as expected. */
  lemma LiteralKeysParse(a: string, b: string, x: string)
    requires Word(a) && Word(b) && Word(x)
    ensures IsListKey(ListKey([Quote(a), Quote(b), x])) && Tokens(ListKey([Quote(a), Quote(b), x]).s) == ["*" + a, "*" + b, x]
    ensures IsListKey(ListKey([Quote(a), Quote(b)])) && Tokens(ListKey([Quote(a), Quote(b)]).s) == ["*" + a, "*" + b]
  {
    WordQuoted(a);
    WordQuoted(b);
    MarkQuote(a);
    MarkQuote(b);
    TokensOfListKey([Quote(a), Quote(b), x]);
    TokensOfListKey([Quote(a), Quote(b)]);
  }

  /** The key `[_, "c"]`, written out, parses as expected. */
  lemma WildcardLiteralParse(c: string)
    requires Word(c)
    ensures IsListKey(ListKey(["_", Quote(c)]))
    ensures Tokens(ListKey(["_", Quote(c)]).s) == ["_", "*" + c]
  {
    UnderscorePlain();
    WordQuoted(c);
    MarkQuote(c);
    TokensOfListKey(["_", Quote(c)]);
  }

  /** The key `["a", _, "m"]`, written out, parses as expected. */
  lemma WildcardInsideParse(a: string, m: string)
    requires Word(a) && Word(m)
    ensures IsListKey(ListKey([Quote(a), "_", Quote(m)]))
    ensures Tokens(ListKey([Quote(a), "_", Quote(m)]).s) == ["*" + a, "_", "*" + m]
  {
    UnderscorePlain();
    WordQuoted(a);
    WordQuoted(m);
    MarkQuote(a);
    MarkQuote(m);
    TokensOfListKey([Quote(a), "_", Quote(m)]);
  }

  lemma UnderscorePlain()
    ensures PlainItem("_") && '"' !in "_" && Mark("_") == "_"
  {
    var u := "_";
    assert u[1..] == [];
  }

  lemma UnderscoreToken()
    ensures Bare("_") == "_" && Binds("_")
  {
    var u := "_";
    assert u[1..] == [];
  }

  /** `[_, "c"]` against `[v, c]`: the literal agrees and so does the last
      position, and `_` takes `v`. */
  lemma WildcardLiteralSurvive(c: string, v: string)
    requires Word(c)
    ensures Survives(["_", "*" + c], [Str(v), Str(c)])
    ensures Args(["_", "*" + c], [Str(v), Str(c)]) == [Str(v)]
  {
    MarkQuote(c);
    UnderscoreToken();
    var t, comp := ["_", "*" + c], [Str(v), Str(c)];
    assert Agrees(t, comp, 1);
    assert Bare(t[0]) == "_";
    assert FirstIndex(t, "_") == 0;
    assert !Binds(t[1]);
    assert ArgsUpTo(t, comp, 1) == [Str(v)];
  }

  /** The library's wildcard test, over any words: a key parsing as
      `[_, "c"]` matches `[v, c]` and binds `v`. */
  lemma WildcardThenLiteral<H>(ps: PArray<H>, k: Key, c: string, v: string)
    requires Word(c)
    requires |ps| >= 1 && ps[0].key == k
    requires IsListKey(k) && Tokens(k.s) == ["_", "*" + c]
    ensures EvalArray(ps, [Str(v), Str(c)]) == Invoke(k, [Str(v)])
  {
    WildcardLiteralSurvive(c, v);
    FirstChosenByTokens(ps, [Str(v), Str(c)], ["_", "*" + c], [Str(v)]);
  }

  /** `["a", _, "m"]` against `[a, u, m]`: both literals agree, and `_`
      takes `u`. */
  lemma WildcardInsideSurvive(a: string, m: string, u: string)
    requires Word(a) && Word(m)
    ensures Survives(["*" + a, "_", "*" + m], [Str(a), Str(u), Str(m)])
    ensures Args(["*" + a, "_", "*" + m], [Str(a), Str(u), Str(m)]) == [Str(u)]
  {
    MarkQuote(m);
    UnderscoreToken();
    var t, comp := ["*" + a, "_", "*" + m], [Str(a), Str(u), Str(m)];
    assert Agrees(t, comp, 2);
    assert Bare(t[1]) == "_";
    assert HasWildcard(t, 2);
    WildcardInsideArgs(a, m, u);
  }

  lemma WildcardInsideArgs(a: string, m: string, u: string)
    requires Word(a) && Word(m)
    ensures Args(["*" + a, "_", "*" + m], [Str(a), Str(u), Str(m)]) == [Str(u)]
  {
    UnderscoreToken();
    var t, comp := ["*" + a, "_", "*" + m], [Str(a), Str(u), Str(m)];
    assert t[0][0] == '*' && t[2][0] == '*';
    assert t[1..][0] == "_";
    assert FirstIndex(t, "_") == 1;
    assert ArgsUpTo(t, comp, 1) == [];
    assert ArgsUpTo(t, comp, 2) == [comp[1]];
  }

  /** The library's irregular wildcard test, over any words: a key parsing as
      `["a", _, "m"]` matches `[a, u, m]` and binds `u`, although the `_`
      position does not agree. */
  lemma WildcardInside<H>(ps: PArray<H>, k: Key, a: string, m: string, u: string)
    requires Word(a) && Word(m)
    requires |ps| >= 1 && ps[0].key == k
    requires IsListKey(k) && Tokens(k.s) == ["*" + a, "_", "*" + m]
    ensures EvalArray(ps, [Str(a), Str(u), Str(m)]) == Invoke(k, [Str(u)])
  {
    var comp, toks := [Str(a), Str(u), Str(m)], ["*" + a, "_", "*" + m];
    WildcardInsideSurvive(a, m, u);
    assert forall j | 0 <= j < |comp| :: IsElement(comp[j]);
    FirstChosenByTokens(ps, comp, toks, [Str(u)]);
  }
}

=== FILE: compact.dfy ===
/** `compact($collection)` (src/Algorithms/Compact.php): filter out every
    boolean and every `null`, keeping all other values, falsy or not. */
module Compact {
  import opened Sequences
  import opened PhpValue

  predicate Kept(v: Value)
  {
    !v.Bool? && !v.Null?
  }

  function Compact(c: seq<Value>): (r: seq<Value>)
    ensures forall i | 0 <= i < |r| :: !r[i].Bool? && !r[i].Null?
    ensures forall i | 0 <= i < |c| && !c[i].Bool? && !c[i].Null? :: c[i] in r
    ensures forall i | 0 <= i < |r| :: r[i] in c
    ensures |r| <= |c|
    ensures |r| == |c| <==> forall i | 0 <= i < |c| :: !c[i].Bool? && !c[i].Null?
  {
    FilterKeepsAll(c, Kept);
    FilterMembers(c, Kept);
    Filter(c, Kept)
  }

  /** Order is kept: compacting a concatenation compacts each part, and one
      element survives exactly when it is neither a boolean nor `null`. */
  lemma CompactKeepsOrder(a: seq<Value>, b: seq<Value>, x: Value)
    ensures Compact(a + b) == Compact(a) + Compact(b)
    ensures Compact([x]) == if x.Bool? || x.Null? then [] else [x]
  {
    FilterAppend(a, b, Kept);
  }

  /** Compacting twice is compacting once. */
  lemma CompactIdempotent(c: seq<Value>)
    ensures Compact(Compact(c)) == Compact(c)
  {
    FilterIdempotent(c, Kept);
  }

  /** Falsy values that are not booleans survive. */
  lemma FalsyNonBooleansKept()
    ensures Compact([Int(0), Bool(false), Str(""), Null, Arr([]), Bool(true)]) == [Int(0), Str(""), Arr([])]
  {
  }
}

=== FILE: cons_pattern.dfy ===
/** Positional dispatch on cons-style keys (src/PatternMatching/functions.php,
    `getNumConditions` and `match`): a key such as `(x:y:_)` is called with as
    many values as it has named segments. */
module ConsPattern {
  import opened Optional
  import opened PhpValue
  import opened PhpArray
  import opened Strings
  import opened Sequences
  import opened ArrayExtend
  import opened PatternSet

  /** The segments of a cons key: the text with `(` and `)` deleted, split on
      `:`. A key without `_` is first replaced by `_`. */
  function Segments(text: string): seq<string>
  {
    var t := if '_' in text then text else "_";
    Split(DeleteAll(DeleteAll(t, '('), ')'), ':')
  }

  predicate Named(seg: string)
  {
    seg != "_"
  }

  /** The arity `getNumConditions` gives a key: its segments other than `_`. */
  function Arity(k: Key): nat
  {
    |Filter(Segments(KeyText(k)), Named)|
  }

  /** A key without `_` has arity 0, whatever else it holds. */
  lemma NoUnderscoreArity(k: Key)
    requires '_' !in KeyText(k)
    ensures Arity(k) == 0
  {
    assert DeleteAll(DeleteAll("_", '('), ')') == "_";
    SplitAbsent("_", ':');
  }

  /** The cons key `(n1:n2:...:_)` naming the values in order. */
  function ConsKey(names: seq<string>): string
  {
    "(" + Join(names + ["_"], ':') + ")"
  }

  /** A cons key has one condition per name, when the names are free of the
      characters the parser deletes or splits on and none is `_`. */
  lemma ConsKeyArity(names: seq<string>)
    requires forall i | 0 <= i < |names| :: names[i] != "_"
    requires forall i | 0 <= i < |names| :: ':' !in names[i] && '(' !in names[i] && ')' !in names[i]
    ensures Arity(StrK(ConsKey(names))) == |names|
  {
    var parts := names + ["_"];
    assert forall i | 0 <= i < |parts| :: ':' !in parts[i] && '(' !in parts[i] && ')' !in parts[i] by {
      forall i | 0 <= i < |parts|
        ensures ':' !in parts[i] && '(' !in parts[i] && ')' !in parts[i]
      {
        if i < |names| {
          assert parts[i] == names[i];
        }
      }
    }
    ConsKeySegments(parts);
    assert Segments(KeyText(StrK(ConsKey(names)))) == parts;
    FilterDropsWildcard(names);
  }

  /** Parsing `(p1:p2:...)` gives the parts back. */
  lemma ConsKeySegments(parts: seq<string>)
    requires |parts| > 0 && parts[|parts| - 1] == "_"
    requires forall i | 0 <= i < |parts| :: ':' !in parts[i] && '(' !in parts[i] && ')' !in parts[i]
    ensures Segments("(" + Join(parts, ':') + ")") == parts
  {
    var body := Join(parts, ':');
    var key := "(" + body + ")";
    JoinWithout(parts, ':', '(');
    JoinWithout(parts, ':', ')');
    UnderscoreInJoin(parts, ':', |parts| - 1);
    assert key[1..|key| - 1] == body;
    assert '_' in key;
    StripParens(body);
    SplitJoin(parts, ':');
  }

  /** A character that is neither the separator nor in any part is not in
      the join. */
  lemma {:induction false} JoinWithout(parts: seq<string>, c: char, x: char)
    requires x != c
    requires forall i | 0 <= i < |parts| :: x !in parts[i]
    ensures x !in Join(parts, c)
  {
    if |parts| > 1 {
      JoinWithout(parts[1..], c, x);
      assert Join(parts, c) == parts[0] + ([c] + Join(parts[1..], c));
    }
  }

  /** The characters of a part are in the join. */
  lemma {:induction false} UnderscoreInJoin(parts: seq<string>, c: char, j: nat)
    requires j < |parts| && parts[j] == "_"
    ensures '_' in Join(parts, c)
  {
    if |parts| > 1 {
      if j == 0 {
        assert Join(parts, c)[0] == '_';
      } else {
        UnderscoreInJoin(parts[1..], c, j - 1);
        var rest := Join(parts[1..], c);
        var k :| 0 <= k < |rest| && rest[k] == '_';
        assert Join(parts, c) == (parts[0] + [c]) + rest;
        assert Join(parts, c)[|parts[0]| + 1 + k] == '_';
      }
    }
  }

  lemma StripParens(body: string)
    requires '(' !in body && ')' !in body
    ensures DeleteAll(DeleteAll("(" + body + ")", '('), ')') == body
  {
    var open, close := "(", ")";
    assert DeleteAll(open, '(') == [] by {
      assert open[1..] == [];
    }
    assert DeleteAll(close, '(') == close by {
      assert close[1..] == [];
    }
    assert DeleteAll(close, ')') == [] by {
      assert close[1..] == [];
    }
    var tail := body + close;
    assert "(" + body + ")" == open + tail;
    DeleteAllAppend(open, tail, '(');
    DeleteAllAppend(body, close, '(');
    DeleteAllAbsent(body, '(');
    assert DeleteAll(open + tail, '(') == tail;
    DeleteAllAppend(body, close, ')');
    DeleteAllAbsent(body, ')');
    assert DeleteAll(tail, ')') == body + [];
  }

  lemma FilterDropsWildcard(names: seq<string>)
    requires forall i | 0 <= i < |names| :: names[i] != "_"
    ensures |Filter(names + ["_"], Named)| == |names|
  {
    FilterAppend(names, ["_"], Named);
    FilterKeepsAll(names, Named);
    assert Filter(["_"], Named) == [];
  }

  /** `getNumConditions($conditions)` on the keys of a pattern set: the entry
      `(string)key => arity` for every key, combined with `array_merge`. */
  function NumConditions<H>(ps: PArray<H>): PArray<nat>
  {
    Extend(Singletons(seq(|ps|, i requires 0 <= i < |ps| => Entry(KeyOfText(KeyText(ps[i].key)), Arity(ps[i].key)))))
  }

  /** String keys that PHP keeps as strings. */
  predicate TextKeys<H>(ps: PArray<H>)
  {
    forall i | 0 <= i < |ps| :: ps[i].key.StrK? && !IsIntegerKeyText(ps[i].key.s)
  }

  /** For a pattern set keyed by (non-numeric) strings, the arity table lists
      every key once, in declaration order, with its arity. */
  lemma NumConditionsInOrder<H>(ps: PArray<H>)
    requires DistinctKeys(ps) && TextKeys(ps)
    ensures |NumConditions(ps)| == |ps|
    ensures forall i | 0 <= i < |ps| :: NumConditions(ps)[i] == Entry(ps[i].key, Arity(ps[i].key))
  {
    var es := seq(|ps|, i requires 0 <= i < |ps| => Entry(KeyOfText(KeyText(ps[i].key)), Arity(ps[i].key)));
    assert forall i | 0 <= i < |ps| :: es[i] == Entry(ps[i].key, Arity(ps[i].key));
    ExtendDistinctStrings(es);
  }

  /** The fallback key has no conditions. */
  lemma WildcardArity()
    ensures Arity(Wildcard) == 0
  {
    var w := "_";
    assert w[1..] == [];
    assert DeleteAll(DeleteAll(w, '('), ')') == w;
    SplitAbsent(w, ':');
    assert Filter([w], Named) == [];
  }

  /** The filter `fn(int $count): bool => $count == $valCount`, on keys. */
  function ArityIs(n: nat): Key -> bool
  {
    (k: Key) => Arity(k) == n
  }

  /** `match($options)($values)`. Without a `_` key the arity table is built
      from a synthetic `_ => false`, so every call yields `false`. Otherwise
      the first key (in declaration order) whose arity is the number of
      values, when there is at least one value, is called with the values,
      and failing that `_` is called with none. */
  function Match<H>(ps: PArray<H>, values: seq<Value>): (r: Outcome)
    ensures r.ReturnsFalse? <==> FindKey(ps, Wildcard).None?
    ensures !r.NoHandler?
    ensures r.Invoke? && r.key != Wildcard ==>
      && r.args == values
      && Arity(r.key) == |values| >= 1
      && exists i | 0 <= i < |ps| :: ps[i].key == r.key && forall j | 0 <= j < i :: Arity(ps[j].key) != |values|
    ensures FindKey(ps, Wildcard).Some? && |values| > 0 && (exists i | 0 <= i < |ps| :: Arity(ps[i].key) == |values|)
      ==> r.Invoke? && r.key != Wildcard
    ensures FindKey(ps, Wildcard).Some? && (|values| == 0 || forall i | 0 <= i < |ps| :: Arity(ps[i].key) != |values|)
      ==> r == Invoke(Wildcard, [])
  {
    WildcardArity();
    if FindKey(ps, Wildcard).None? then ReturnsFalse
    else
      var f := First(ps, ArityIs(|values|));
      FirstSpec(ps, ArityIs(|values|));
      if |values| > 0 && f.Some? then Invoke(ps[f.value].key, values) else Invoke(Wildcard, [])
  }

  /** The arities of the three keys of the library's own arity test,
      `(a:b:_)`, `(a:_)` and `_` (`ConsKeyTwo` and `ConsKeyOne` spell the
      first two out). */
  lemma ArityOracle()
    ensures Arity(StrK(ConsKey(["a", "b"]))) == 2
    ensures Arity(StrK(ConsKey(["a"]))) == 1
    ensures Arity(Wildcard) == 0
  {
    ConsKeyArity(["a", "b"]);
    ConsKeyArity(["a"]);
    WildcardArity();
  }

  /** A cons key is never read as an integer key. */
  lemma ConsKeyIsText(names: seq<string>)
    ensures !IsIntegerKeyText(ConsKey(names))
  {
    assert ConsKey(names)[0] == '(';
  }

  /** `getNumConditions(['(a:b:_)', '(a:_)', '_'])` is
      `['(a:b:_)' => 2, '(a:_)' => 1, '_' => 0]`. */
  lemma NumConditionsOracle<H>(f: H, g: H, h: H)
    ensures NumConditions([Entry(StrK(ConsKey(["a", "b"])), f), Entry(StrK(ConsKey(["a"])), g), Entry(Wildcard, h)])
         == [Entry(StrK(ConsKey(["a", "b"])), 2), Entry(StrK(ConsKey(["a"])), 1), Entry(Wildcard, 0)]
  {
    ConsKeysDiffer("a", "b");
    NumConditionsThree(ConsKey(["a", "b"]), ConsKey(["a"]), f, g, h);
    ArityOracle();
  }

  lemma NumConditionsThree<H>(k1: string, k2: string, f: H, g: H, h: H)
    requires k1 != k2 && k1 != "_" && k2 != "_"
    requires !IsIntegerKeyText(k1) && !IsIntegerKeyText(k2)
    ensures NumConditions([Entry(StrK(k1), f), Entry(StrK(k2), g), Entry(Wildcard, h)])
         == [Entry(StrK(k1), Arity(StrK(k1))), Entry(StrK(k2), Arity(StrK(k2))), Entry(Wildcard, Arity(Wildcard))]
  {
    var ps := [Entry(StrK(k1), f), Entry(StrK(k2), g), Entry(Wildcard, h)];
    ThreeKeys(k1, k2, f, g, h);
    NumConditionsOfThree(ps);
  }

  /** The arity table of a three-key pattern set, entry by entry. */
  lemma NumConditionsOfThree<H>(ps: PArray<H>)
    requires |ps| == 3 && DistinctKeys(ps) && TextKeys(ps)
    ensures NumConditions(ps)
         == [Entry(ps[0].key, Arity(ps[0].key)), Entry(ps[1].key, Arity(ps[1].key)), Entry(ps[2].key, Arity(ps[2].key))]
  {
    NumConditionsInOrder(ps);
    var r := NumConditions(ps);
    ThreeEntries(r, Entry(ps[0].key, Arity(ps[0].key)), Entry(ps[1].key, Arity(ps[1].key)), Entry(ps[2].key, Arity(ps[2].key)));
  }

  /** Two text keys and `_`, in that order, form a pattern set. */
  lemma ThreeKeys<H>(k1: string, k2: string, f: H, g: H, h: H)
    requires k1 != k2 && k1 != "_" && k2 != "_"
    requires !IsIntegerKeyText(k1) && !IsIntegerKeyText(k2)
    ensures DistinctKeys([Entry(StrK(k1), f), Entry(StrK(k2), g), Entry(Wildcard, h)])
    ensures TextKeys([Entry(StrK(k1), f), Entry(StrK(k2), g), Entry(Wildcard, h)])
    ensures FindKey([Entry(StrK(k1), f), Entry(StrK(k2), g), Entry(Wildcard, h)], Wildcard).Some?
  {
    assert !IsIntegerKeyText("_");
  }

  /** The keys `(a:b:_)`, `(a:_)` and `_` are distinct text keys. */
  lemma ConsKeysDiffer(a: string, b: string)
    ensures ConsKey([a, b]) != ConsKey([a]) && ConsKey([a, b]) != "_" && ConsKey([a]) != "_"
    ensures !IsIntegerKeyText(ConsKey([a, b])) && !IsIntegerKeyText(ConsKey([a]))
  {
    ConsKeyTwo(a, b);
    ConsKeyOne(a);
    assert |ConsKey([a, b])| == |a| + |b| + 5;
    assert |ConsKey([a])| == |a| + 4;
    ConsKeyIsText([a, b]);
    ConsKeyIsText([a]);
  }

  /** `match` calls the first key whose arity is the number of values. */
  lemma MatchFirst<H>(ps: PArray<H>, values: seq<Value>, i: nat)
    requires FindKey(ps, Wildcard).Some?
    requires |values| > 0 && i < |ps| && Arity(ps[i].key) == |values|
    requires forall j | 0 <= j < i :: Arity(ps[j].key) != |values|
    ensures Match(ps, values) == Invoke(ps[i].key, values)
  {
    FirstIs(ps, ArityIs(|values|), i);
  }

  /** `match` on `(x:y:_)`, `(x:_)` and `_` with the values `[10, 5]` calls
      `(x:y:_)` with both values. */
  lemma MatchOracle<H>(f: H, g: H, h: H)
    ensures Match([Entry(StrK(ConsKey(["x", "y"])), f), Entry(StrK(ConsKey(["x"])), g), Entry(Wildcard, h)], [Int(10), Int(5)])
         == Invoke(StrK(ConsKey(["x", "y"])), [Int(10), Int(5)])
  {
    var ps := [Entry(StrK(ConsKey(["x", "y"])), f), Entry(StrK(ConsKey(["x"])), g), Entry(Wildcard, h)];
    ConsKeysDiffer("x", "y");
    ThreeKeys(ConsKey(["x", "y"]), ConsKey(["x"]), f, g, h);
    ConsKeyArity(["x", "y"]);
    MatchFirst(ps, [Int(10), Int(5)], 0);
  }

  /** `ConsKey([a])` is `(a:_)`. */
  lemma ConsKeyOne(a: string)
    ensures ConsKey([a]) == "(" + a + ":_)"
  {
    var parts := [a] + ["_"];
    assert parts[1..] == ["_"];
    assert Join(parts, ':') == a + ":_";
  }

  /** `ConsKey([a, b])` is `(a:b:_)`. */
  lemma ConsKeyTwo(a: string, b: string)
    ensures ConsKey([a, b]) == "(" + a + ":" + b + ":_)"
  {
    var parts := [a, b] + ["_"];
    assert parts[1..] == [b] + ["_"];
    assert parts[1..][1..] == ["_"];
    assert Join(parts[1..], ':') == b + ":_";
    assert Join(parts, ':') == a + ":" + b + ":_";
  }
}

=== FILE: every.dfy ===
/** `every($collection, $func)` (src/Algorithms/Every.php): filter the
    collection with the predicate and compare the number kept with the size of
    the collection. */
module Every {
  import opened Sequences

  function Every<T>(c: seq<T>, f: T -> bool): (r: bool)
    ensures r <==> forall i | 0 <= i < |c| :: f(c[i])
  {
    FilterKeepsAll(c, f);
    |Filter(c, f)| == |c|
  }

  /** A single failing element makes the whole test fail. */
  lemma OneFailureSuffices<T>(c: seq<T>, f: T -> bool, i: nat)
    requires i < |c| && !f(c[i])
    ensures !Every(c, f)
  {
  }

  /** The answer does not depend on the order of the elements. */
  lemma EveryIgnoresOrder<T>(c: seq<T>, d: seq<T>, f: T -> bool)
    requires multiset(c) == multiset(d)
    ensures Every(c, f) == Every(d, f)
  {
    forall i | 0 <= i < |c| ensures c[i] in d {
      assert c[i] in multiset(c);
    }
    forall i | 0 <= i < |d| ensures d[i] in c {
      assert d[i] in multiset(d);
    }
  }
}

=== FILE: extend.dfy ===
/** `extend(...$lists)` (src/Algorithms/Extend.php): walk every entry of every
    list in order; a string key is written with `$ret[$key] = $val`, any other
    key is appended with `$ret[] = $val`. The same walk is what `array_merge`
    does, so the model of `fromPairs` and of `letIn` reuse it. */
module ArrayExtend {
  import opened Optional
  import opened PhpArray

  /** All entries of all lists, list after list: the order of the loops. */
  function Concat<V>(lists: seq<PArray<V>>): PArray<V>
  {
    if |lists| == 0 then [] else Concat(lists[..|lists| - 1]) + lists[|lists| - 1]
  }

  function TotalLength<V>(lists: seq<PArray<V>>): nat
  {
    if |lists| == 0 then 0 else TotalLength(lists[..|lists| - 1]) + |lists[|lists| - 1]|
  }

  /** The loop body for one entry. */
  function Step<V>(ret: PArray<V>, e: Entry<V>): PArray<V>
  {
    if e.key.StrK? then Put(ret, e.key, e.val) else Push(ret, e.val)
  }

  /** The loop over a sequence of entries, starting from `ret`. */
  function AddAll<V>(ret: PArray<V>, es: PArray<V>): PArray<V>
  {
    if |es| == 0 then ret else Step(AddAll(ret, es[..|es| - 1]), es[|es| - 1])
  }

  /** Value of the last entry of `es` keyed by the string `s`. */
  function LastStr<V>(es: PArray<V>, s: string): Option<V>
  {
    if |es| == 0 then None
    else if es[|es| - 1].key == StrK(s) then Some(es[|es| - 1].val)
    else LastStr(es[..|es| - 1], s)
  }

  /** `extend(...$lists)`. The result is a well-formed PHP array whose integer
      keys are `0, 1, ...`; its integer-keyed values are those of the inputs in
      argument order; each string key holds the value its last occurrence
      wrote; and it has one entry per distinct string key of the inputs. */
  function Extend<V>(lists: seq<PArray<V>>): (r: PArray<V>)
    ensures DistinctKeys(r) && Dense(r)
    ensures IntValues(r) == IntValues(Concat(lists))
    ensures forall s :: Lookup(r, StrK(s)) == LastStr(Concat(lists), s)
    ensures StrKeys(r) == StrKeys(Concat(lists))
    ensures CountStr(r) == |StrKeys(Concat(lists))|
  {
    AddAllInvariant(Concat(lists));
    AddAll([], Concat(lists))
  }

  lemma StrKeysSnoc<V>(es: PArray<V>)
    requires |es| > 0
    ensures StrKeys(es) == StrKeys(es[..|es| - 1]) + (if es[|es| - 1].key.StrK? then {es[|es| - 1].key.s} else {})
  {
    var p := es[..|es| - 1];
    assert forall i | 0 <= i < |p| :: p[i] == es[i];
  }

  /** Every integer key of an array is listed by `IntKeys`. */
  lemma {:induction false} IntKeyListed<V>(a: PArray<V>, i: nat)
    requires i < |a| && a[i].key.IntK?
    ensures a[i].key.i in IntKeys(a)
  {
    if i < |a| - 1 {
      IntKeyListed(a[..|a| - 1], i);
    } else {
      assert IntKeys(a)[|IntKeys(a)| - 1] == a[i].key.i;
    }
  }

  /** What the loop has built after processing the entries `es`. */
  ghost predicate Built<V>(r: PArray<V>, es: PArray<V>)
  {
    && DistinctKeys(r)
    && Dense(r)
    && IntValues(r) == IntValues(es)
    && (forall s :: Lookup(r, StrK(s)) == LastStr(es, s))
    && StrKeys(r) == StrKeys(es)
    && CountStr(r) == |StrKeys(es)|
  }

  /** Writing a string key: the key now holds the written value, and no
      other string key changes. */
  lemma StepStrLookup<V>(r: PArray<V>, es: PArray<V>, e: Entry<V>)
    requires e.key.StrK?
    requires forall s :: Lookup(r, StrK(s)) == LastStr(es, s)
    ensures forall s :: Lookup(Step(r, e), StrK(s)) == LastStr(es + [e], s)
  {
    var es' := es + [e];
    assert es'[..|es|] == es;
    forall s ensures Lookup(Step(r, e), StrK(s)) == LastStr(es', s) {
      if StrK(s) != e.key {
        assert LastStr(es', s) == LastStr(es, s);
      }
    }
  }

  /** Writing a string key adds it to the string keys, and counts it once. */
  lemma StepStrKeys<V>(r: PArray<V>, es: PArray<V>, e: Entry<V>)
    requires e.key.StrK?
    requires StrKeys(r) == StrKeys(es) && CountStr(r) == |StrKeys(es)|
    ensures StrKeys(Step(r, e)) == StrKeys(es + [e])
    ensures CountStr(Step(r, e)) == |StrKeys(es + [e])|
  {
    var es' := es + [e];
    assert es'[..|es|] == es;
    StrKeysSnoc(es');
    PutStr(r, e.key.s, e.val);
  }

  lemma StepStr<V>(r: PArray<V>, es: PArray<V>, e: Entry<V>)
    requires Built(r, es) && e.key.StrK?
    ensures Built(Step(r, e), es + [e])
  {
    var es' := es + [e];
    assert es'[..|es|] == es;
    assert IntValues(es') == IntValues(es);
    PutStr(r, e.key.s, e.val);
    StepStrLookup(r, es, e);
    StepStrKeys(r, es, e);
  }

  /** Appending keeps a list a list: the new key is the next index, which
      no entry holds yet. */
  lemma StepIntShape<V>(r: PArray<V>, v: V)
    requires DistinctKeys(r) && Dense(r)
    ensures DistinctKeys(Push(r, v)) && Dense(Push(r, v))
  {
    var r' := Push(r, v);
    DenseNextIndex(r);
    PushEffect(r, v);
    var n := |IntKeys(r)|;
    assert IntKeys(r') == IntKeys(r) + [n];
    forall i | 0 <= i < |r| && r[i].key.IntK?
      ensures r[i].key != IntK(n)
    {
      IntKeyListed(r, i);
    }
  }

  lemma StepInt<V>(r: PArray<V>, es: PArray<V>, e: Entry<V>)
    requires Built(r, es) && e.key.IntK?
    ensures Built(Step(r, e), es + [e])
  {
    var es' := es + [e];
    assert es'[..|es|] == es;
    StrKeysSnoc(es');
    PushEffect(r, e.val);
    StepIntShape(r, e.val);
    assert forall s :: LastStr(es', s) == LastStr(es, s);
  }

  /** The loop invariant of `extend`, for any sequence of entries. */
  lemma {:induction false} AddAllInvariant<V>(es: PArray<V>)
    ensures Built(AddAll([], es), es)
  {
    if |es| > 0 {
      var p, e := es[..|es| - 1], es[|es| - 1];
      AddAllInvariant(p);
      assert es == p + [e];
      if e.key.StrK? {
        StepStr(AddAll([], p), p, e);
      } else {
        StepInt(AddAll([], p), p, e);
      }
    }
  }

  /** The value a string key ends up with comes from the last list holding it. */
  lemma {:induction false} LastStrAppend<V>(a: PArray<V>, b: PArray<V>, s: string)
    ensures LastStr(a + b, s) == if LastStr(b, s).Some? then LastStr(b, s) else LastStr(a, s)
  {
    if |b| == 0 {
      assert a + b == a;
    } else {
      assert (a + b)[..|a + b| - 1] == a + b[..|b| - 1];
      LastStrAppend(a, b[..|b| - 1], s);
    }
  }

  /** In a PHP array (distinct keys) the last entry with a key is the only one. */
  lemma {:induction false} LastStrIsLookup<V>(a: PArray<V>, s: string)
    requires DistinctKeys(a)
    ensures LastStr(a, s) == Lookup(a, StrK(s))
  {
    if |a| > 0 {
      var p := a[..|a| - 1];
      LastStrIsLookup(p, s);
      if a[|a| - 1].key == StrK(s) {
        assert FindKey(p, StrK(s)).None?;
      }
    }
  }

  /** A string key takes its value from the last argument list that has it. */
  lemma {:induction false} ExtendLastListWins<V>(lists: seq<PArray<V>>, j: nat, s: string)
    requires j < |lists| && DistinctKeys(lists[j])
    requires Lookup(lists[j], StrK(s)).Some?
    requires forall k | j < k < |lists| :: Lookup(lists[k], StrK(s)).None?
    requires forall k | j < k < |lists| :: DistinctKeys(lists[k])
    ensures Lookup(Extend(lists), StrK(s)) == Lookup(lists[j], StrK(s))
  {
    var n := |lists|;
    var init := lists[..n - 1];
    LastStrAppend(Concat(init), lists[n - 1], s);
    LastStrIsLookup(lists[n - 1], s);
    if j < n - 1 {
      ExtendLastListWins(init, j, s);
    }
  }

  /** The list `[v0, v1, ...]` with keys `0, 1, ...`. */
  function Reindex<V>(es: PArray<V>): (r: PArray<V>)
    ensures |r| == |es|
  {
    seq(|es|, i requires 0 <= i < |es| => Entry(IntK(i), es[i].val))
  }

  lemma {:induction false} ReindexMaxKey<V>(es: PArray<V>)
    ensures MaxIntKey(Reindex(es)) == |es| - 1
  {
    if |es| > 0 {
      assert Reindex(es)[..|es| - 1] == Reindex(es[..|es| - 1]);
      ReindexMaxKey(es[..|es| - 1]);
    }
  }

  lemma {:induction false} AddAllIntOnly<V>(es: PArray<V>)
    requires forall i | 0 <= i < |es| :: es[i].key.IntK?
    ensures AddAll([], es) == Reindex(es)
  {
    if |es| > 0 {
      var p := es[..|es| - 1];
      AddAllIntOnly(p);
      ReindexMaxKey(p);
      assert Reindex(p) + [Entry(IntK(|p|), es[|es| - 1].val)] == Reindex(es);
    }
  }

  lemma {:induction false} ConcatLength<V>(lists: seq<PArray<V>>)
    ensures |Concat(lists)| == TotalLength(lists)
  {
    if |lists| > 0 {
      ConcatLength(lists[..|lists| - 1]);
    }
  }

  lemma {:induction false} ConcatIntOnly<V>(lists: seq<PArray<V>>)
    requires forall k, m | 0 <= k < |lists| && 0 <= m < |lists[k]| :: lists[k][m].key.IntK?
    ensures forall i | 0 <= i < |Concat(lists)| :: Concat(lists)[i].key.IntK?
  {
    if |lists| > 0 {
      var init := lists[..|lists| - 1];
      assert forall k | 0 <= k < |init| :: init[k] == lists[k];
      ConcatIntOnly(init);
    }
  }

  /** Lists with integer keys only are concatenated and renumbered from 0; the
      length of the result is the sum of the lengths. */
  lemma ExtendIntOnly<V>(lists: seq<PArray<V>>)
    requires forall k, m | 0 <= k < |lists| && 0 <= m < |lists[k]| :: lists[k][m].key.IntK?
    ensures Extend(lists) == Reindex(Concat(lists))
    ensures |Extend(lists)| == TotalLength(lists)
  {
    ConcatLength(lists);
    ConcatIntOnly(lists);
    AddAllIntOnly(Concat(lists));
  }

  /** No lists, or only empty lists, give the empty array. */
  lemma {:induction false} ExtendOfEmpties<V>(lists: seq<PArray<V>>)
    requires forall k | 0 <= k < |lists| :: |lists[k]| == 0
    ensures Extend(lists) == []
  {
    if |lists| > 0 {
      var init := lists[..|lists| - 1];
      ExtendOfEmpties(init);
      assert Concat(lists) == Concat(init) + [];
    }
  }

  /** Each entry as a one-entry array: the arguments `array_merge(...$parts)`
      receives when every part is `[$key => $val]`. */
  function Singletons<V>(es: PArray<V>): (r: seq<PArray<V>>)
    ensures |r| == |es|
  {
    seq(|es|, i requires 0 <= i < |es| => [es[i]])
  }

  lemma {:induction false} ConcatSingletons<V>(es: PArray<V>)
    ensures Concat(Singletons(es)) == es
  {
    if |es| > 0 {
      var init := es[..|es| - 1];
      assert Singletons(es)[..|es| - 1] == Singletons(init);
      ConcatSingletons(init);
    }
  }

  /** The entry at `j` is the last one keyed by `s`. */
  lemma {:induction false} LastStrTail<V>(es: PArray<V>, j: nat, s: string)
    requires j < |es| && es[j].key == StrK(s)
    requires forall k | j < k < |es| :: es[k].key != StrK(s)
    ensures LastStr(es, s) == Some(es[j].val)
  {
    if j < |es| - 1 {
      LastStrTail(es[..|es| - 1], j, s);
    }
  }

  /** No entry is keyed by `s`. */
  lemma {:induction false} LastStrAbsent<V>(es: PArray<V>, s: string)
    requires forall k | 0 <= k < |es| :: es[k].key != StrK(s)
    ensures LastStr(es, s) == None
  {
    if |es| > 0 {
      LastStrAbsent(es[..|es| - 1], s);
    }
  }

  /** Merging one-entry arrays whose keys are distinct strings gives those
      entries back in order. */
  lemma {:induction false} ExtendDistinctStrings<V>(es: PArray<V>)
    requires DistinctKeys(es)
    requires forall i | 0 <= i < |es| :: es[i].key.StrK?
    ensures Extend(Singletons(es)) == es
  {
    ConcatSingletons(es);
    AddAllFresh(es);
  }

  lemma {:induction false} AddAllFresh<V>(es: PArray<V>)
    requires DistinctKeys(es)
    requires forall i | 0 <= i < |es| :: es[i].key.StrK?
    ensures AddAll([], es) == es
  {
    if |es| > 0 {
      var p := es[..|es| - 1];
      AddAllFresh(p);
      assert FindKey(p, es[|es| - 1].key).None?;
      assert p + [es[|es| - 1]] == es;
    }
  }

  /** An array without integer-keyed values has string keys only. */
  lemma {:induction false} NoIntValues<V>(a: PArray<V>)
    requires IntValues(a) == []
    ensures forall i | 0 <= i < |a| :: a[i].key.StrK?
  {
    if |a| > 0 {
      NoIntValues(a[..|a| - 1]);
    }
  }
}

=== FILE: flip.dfy ===
/** `flip($function)` (src/Algorithms/Flip.php): call the function with the
    argument list reversed. */
module Flip {
  import opened Sequences

  /** `flip($function)`: the whole argument list reversed, however long. In
      the two-argument reading the signature comment gives, `flip(f)(a, b)`
      is `f(b, a)`. */
  function Flip<A(!new), R>(f: seq<A> -> R): (g: seq<A> -> R)
    ensures forall args :: g(args) == f(Reverse(args))
    ensures forall a, b :: g([a, b]) == f([b, a])
  {
    assert forall a: A, b: A :: Reverse([a, b]) == [b, a] by {
      forall a: A, b: A ensures Reverse([a, b]) == [b, a] {
      }
    }
    args => f(Reverse(args))
  }

  /** Flipping twice agrees with the original function on every argument list. */
  lemma FlipFlip<A(!new), R>(f: seq<A> -> R, args: seq<A>)
    ensures Flip(Flip(f))(args) == f(args)
  {
    ReverseReverse(args);
  }

  /** Zero or one argument reaches the function unchanged. */
  lemma FlipShort<A(!new), R>(f: seq<A> -> R, args: seq<A>)
    requires |args| <= 1
    ensures Flip(f)(args) == f(args)
  {
    assert Reverse(args) == args;
  }
}

=== FILE: from_pairs.dfy ===
/** `fromPairs($collection)` (src/Algorithms/FromPairs.php): every element
    becomes the one-entry array `[$key => $val]`, taken from a two-element list
    `[$key, $val]` or, for anything else, from `[null, null]`; the one-entry
    arrays are then combined by `array_merge`, which walks them exactly as
    `extend` does. */
module FromPairs {
  import opened Optional
  import opened PhpValue
  import opened PhpArray
  import opened ArrayExtend

  predicate IsPair(v: Value)
  {
    v.Arr? && |v.items| == 2
  }

  /** PHP rejects an array or object used as a key; everything else converts. */
  predicate PairKeysConvertible(c: seq<Value>)
  {
    forall i | 0 <= i < |c| && IsPair(c[i]) :: Keyable(c[i].items[0])
  }

  /** The one-entry array an element contributes. A malformed element gives
      `[null => null]`, which PHP stores under the key `""`. */
  function PairEntry(v: Value): (e: Entry<Value>)
    requires IsPair(v) ==> Keyable(v.items[0])
    ensures !IsPair(v) ==> e == Entry(StrK(""), Null)
  {
    if IsPair(v) then Entry(KeyOf(v.items[0]), v.items[1]) else Entry(KeyOf(Null), Null)
  }

  /** The entry each element contributes, in order. */
  function PairEntries(c: seq<Value>): (es: PArray<Value>)
    requires PairKeysConvertible(c)
    ensures |es| == |c|
    ensures forall i | 0 <= i < |c| :: es[i] == PairEntry(c[i])
  {
    seq(|c|, i requires 0 <= i < |c| && PairKeysConvertible(c) => PairEntry(c[i]))
  }

  /** `fromPairs`: the `array_merge` of the one-entry arrays. */
  function FromPairs(c: seq<Value>): (r: PArray<Value>)
    requires PairKeysConvertible(c)
    ensures DistinctKeys(r) && Dense(r)
    ensures |c| == 0 ==> r == []
  {
    ExtendOfEmpties(Singletons<Value>([]));
    Extend(Singletons(PairEntries(c)))
  }

  /** The entry a key ends up with is the one written by the last element whose
      key converts to it: for a repeated string key the last pair wins. */
  lemma {:induction false} LastPairWins(c: seq<Value>, j: nat, s: string)
    requires PairKeysConvertible(c)
    requires j < |c| && PairEntry(c[j]).key == StrK(s)
    requires forall k | j < k < |c| :: PairEntry(c[k]).key != StrK(s)
    ensures Lookup(FromPairs(c), StrK(s)) == Some(PairEntry(c[j]).val)
  {
    ConcatSingletons(PairEntries(c));
    LastStrTail(PairEntries(c), j, s);
  }

  /** A well-formed pair whose key is a non-numeric string, and whose key no
      later element repeats, contributes exactly that key and value. */
  lemma PairContributes(c: seq<Value>, j: nat, s: string, v: Value)
    requires PairKeysConvertible(c)
    requires j < |c| && c[j] == Arr([Str(s), v]) && !IsIntegerKeyText(s)
    requires forall k | j < k < |c| :: PairEntry(c[k]).key != StrK(s)
    ensures Lookup(FromPairs(c), StrK(s)) == Some(v)
  {
    LastPairWins(c, j, s);
  }

  /** Every malformed element writes `null` under the key `""`: when no
      well-formed pair uses that key, the result holds `"" => null`, a single
      entry since the result's keys are distinct. */
  lemma MalformedCollapse(c: seq<Value>, j: nat)
    requires PairKeysConvertible(c)
    requires j < |c| && !IsPair(c[j])
    requires forall k | 0 <= k < |c| && IsPair(c[k]) :: KeyOf(c[k].items[0]) != StrK("")
    ensures Lookup(FromPairs(c), StrK("")) == Some(Null)
  {
    var lastBad :| j <= lastBad < |c| && !IsPair(c[lastBad]) && forall k | lastBad < k < |c| :: IsPair(c[k]) by {
      LastMalformed(c, j);
    }
    LastPairWins(c, lastBad, "");
  }

  lemma {:induction false} LastMalformed(c: seq<Value>, j: nat)
    requires j < |c| && !IsPair(c[j])
    ensures exists m :: j <= m < |c| && !IsPair(c[m]) && forall k | m < k < |c| :: IsPair(c[k])
    decreases |c| - j
  {
    if exists k :: j < k < |c| && !IsPair(c[k]) {
      var k :| j < k < |c| && !IsPair(c[k]);
      LastMalformed(c, k);
    } else {
      assert forall k | j < k < |c| :: IsPair(c[k]);
    }
  }

  /** Values under integer keys are kept in order and renumbered `0, 1, ...`:
      the keys given in the pairs are not preserved. */
  lemma IntKeysRenumbered(c: seq<Value>)
    requires PairKeysConvertible(c)
    ensures IntValues(FromPairs(c)) == IntValues(PairEntries(c))
    ensures forall n | 0 <= n < |IntKeys(FromPairs(c))| :: IntKeys(FromPairs(c))[n] == n
  {
    ConcatSingletons(PairEntries(c));
  }
}

=== FILE: let_in.dfy ===
/** `letIn($params, $list)` (src/PatternMatching/functions.php): a binder
    that names list elements by position. Each declared name `p` becomes the
    literal key `"p"` returning the element at its position; the binder
    resolves every requested name through `patternMatch` against these keys
    and hands the results, in request order, to the continuation. */
module LetBinding {
  import opened Optional
  import opened PhpValue
  import opened PhpArray
  import opened ArrayExtend
  import opened PatternSet
  import opened StringPattern
  import opened ValueMatch

  function Max(a: nat, b: nat): nat
  {
    if a < b then b else a
  }

  /** The one-entry array `array_map` builds at position `i`. `array_map`
      pads the shorter of the two lists with `null`: a missing element makes
      the value `null`, and a missing name makes the key `_` and the value
      the one-element list of the element. The key `"p"` holds quotes, so
      PHP keeps it as a string key. */
  function Slot(params: seq<string>, list: seq<Value>, i: nat): (e: Entry<Value>)
    requires i < Max(|params|, |list|)
    ensures e.key.StrK?
  {
    if i < |params| then Entry(QuotedKey(params[i]), if i < |list| then list[i] else Null)
    else Entry(Wildcard, Arr([list[i]]))
  }

  function Slots(params: seq<string>, list: seq<Value>): (es: PArray<Value>)
    ensures |es| == Max(|params|, |list|)
    ensures forall i | 0 <= i < |es| :: es[i] == Slot(params, list, i)
  {
    seq(Max(|params|, |list|), i requires 0 <= i < Max(|params|, |list|) => Slot(params, list, i))
  }

  /** The pattern set: the `array_merge` of the one-entry arrays, so a
      repeated key keeps its first position and its last value. */
  function Table(params: seq<string>, list: seq<Value>): (t: PArray<Value>)
    ensures DistinctKeys(t)
    ensures forall s :: Lookup(t, StrK(s)) == LastStr(Slots(params, list), s)
  {
    ConcatSingletons(Slots(params, list));
    Extend(Singletons(Slots(params, list)))
  }

  /** One requested name: the value of the handler `patternMatch` selects,
      or `None` where PHP fails, either for want of a handler or because an
      empty name (`""`, `"0"`) is falsy and lands in the object matcher. */
  function Resolve(table: PArray<Value>, name: string): (r: Option<Value>)
    ensures EmptyText(name) ==> r.None?
    ensures !EmptyText(name) ==> (r.Some? <==> PatternMatch(table, Str(name)).Invoke?)
    ensures !EmptyText(name) && r.Some? ==> Lookup(table, PatternMatch(table, Str(name)).key) == r
  {
    if EmptyText(name) then None
    else
      var m := PatternMatch(table, Str(name));
      if m.Invoke? then
        assert FindKey(table, m.key).Some?;
        Lookup(table, m.key)
      else None
  }

  function Resolver(table: PArray<Value>): string -> Option<Value>
  {
    name => Resolve(table, name)
  }

  /** `letIn($params, $list)($requested, $function)`: the continuation
      applied to the resolved values, in request order; `None` when any name
      fails to resolve. */
  function LetIn<R>(params: seq<string>, list: seq<Value>, requested: seq<string>, k: seq<Value> -> R): (r: Option<R>)
    ensures r.Some? <==> forall i | 0 <= i < |requested| :: Resolve(Table(params, list), requested[i]).Some?
    ensures r.Some? ==> exists vs: seq<Value> ::
      && |vs| == |requested|
      && (forall i | 0 <= i < |requested| :: Resolve(Table(params, list), requested[i]) == Some(vs[i]))
      && r.value == k(vs)
  {
    var f := Resolver(Table(params, list));
    var vs := Traverse(f, requested);
    assert forall i | 0 <= i < |requested| :: f(requested[i]) == Resolve(Table(params, list), requested[i]);
    if vs.Some? then Some(k(vs.value)) else None
  }

  /** The continuation receives exactly the resolved values. */
  lemma LetInValues<R>(params: seq<string>, list: seq<Value>, requested: seq<string>, k: seq<Value> -> R, vs: seq<Value>)
    requires Traverse(Resolver(Table(params, list)), requested) == Some(vs)
    ensures LetIn(params, list, requested, k) == Some(k(vs))
  {
  }

  /** The table holds `"p"` with the value at the last position of `p`. */
  lemma {:induction false} DeclaredEntry(params: seq<string>, list: seq<Value>, j: nat)
    requires j < |params|
    requires forall m | j < m < |params| :: params[m] != params[j]
    ensures Lookup(Table(params, list), QuotedKey(params[j])) == Some(if j < |list| then list[j] else Null)
  {
    var es := Slots(params, list);
    var s := Quote(params[j]);
    forall m | j < m < |es| ensures es[m].key != StrK(s) {
      if m < |params| {
        QuotedKeyInjective(params[m], params[j]);
      } else {
        QuotedKeyInjective(params[j], params[j]);
      }
    }
    LastStrTail(es, j, s);
  }

  /** A declared name resolves to the element at its last declared position,
      or to `null` when the list is shorter than that. */
  lemma ResolveDeclared(params: seq<string>, list: seq<Value>, j: nat)
    requires j < |params| && '"' !in params[j] && !EmptyText(params[j])
    requires forall m | j < m < |params| :: params[m] != params[j]
    ensures Resolve(Table(params, list), params[j]) == Some(if j < |list| then list[j] else Null)
  {
    DeclaredEntry(params, list, j);
    ResolveLiteral(Table(params, list), params[j]);
  }

  /** A name whose literal key the table holds resolves to that key's value. */
  lemma ResolveLiteral(table: PArray<Value>, name: string)
    requires '"' !in name && !EmptyText(name) && Lookup(table, QuotedKey(name)).Some?
    ensures Resolve(table, name) == Lookup(table, QuotedKey(name))
  {
    LiteralSelected(table, name, name);
    assert PatternMatch(table, Str(name)) == EvalString(table, name);
  }

  /** The last `_` entry of the slots: the last padded element, if any. */
  lemma {:induction false} WildcardEntry(params: seq<string>, list: seq<Value>)
    ensures Lookup(Table(params, list), Wildcard)
         == if |list| > |params| then Some(Arr([list[|list| - 1]])) else None
  {
    var es := Slots(params, list);
    forall m | 0 <= m < |params| ensures es[m].key != Wildcard {
      QuotedKeyInjective(params[m], params[m]);
    }
    if |list| > |params| {
      LastStrTail(es, |list| - 1, "_");
    } else {
      LastStrAbsent(es, "_");
    }
  }

  /** A name not declared (with declared names free of quotes) reaches `_`:
      the last element when the list outruns the names, and a failure
      otherwise. */
  lemma ResolveUndeclared(params: seq<string>, list: seq<Value>, name: string)
    requires !EmptyText(name)
    requires forall m | 0 <= m < |params| :: '"' !in params[m] && params[m] != name
    ensures Resolve(Table(params, list), name)
         == if |list| > |params| then Some(Arr([list[|list| - 1]])) else None
  {
    var t := Table(params, list);
    var es := Slots(params, list);
    WildcardEntry(params, list);
    forall i | 0 <= i < |t| ensures !LiteralFor(t[i].key, name) {
      if t[i].key.StrK? {
        var s := t[i].key.s;
        assert FindKey(t, StrK(s)).Some?;
        var j :| 0 <= j < |es| && es[j].key == StrK(s) by {
          LastStrSome(es, s);
        }
        if j < |params| {
          UnquoteQuotedKey(params[j]);
        } else {
          assert s == "_";
        }
      }
    }
    assert PatternMatch(t, Str(name)) == Select(t, Wildcard, []);
  }

  /** A string key the merged array holds comes from some slot. */
  lemma {:induction false} LastStrSome<V>(es: PArray<V>, s: string)
    requires LastStr(es, s).Some?
    ensures exists j | 0 <= j < |es| :: es[j].key == StrK(s)
  {
    if forall j | 0 <= j < |es| :: es[j].key != StrK(s) {
      LastStrAbsent(es, s);
    }
  }

  /** The library's first binder test, over any names and list: declaring
      `[p, q, c]` and requesting `[c]` passes the third element. */
  lemma ThirdNameOracle<R>(p: string, q: string, c: string, list: seq<Value>, k: seq<Value> -> R)
    requires |list| >= 3 && '"' !in c && !EmptyText(c)
    ensures LetIn([p, q, c], list, [c], k) == Some(k([list[2]]))
  {
    var params := [p, q, c];
    ResolveDeclared(params, list, 2);
    TraverseOne(Resolver(Table(params, list)), c, list[2]);
    LetInValues(params, list, [c], k, [list[2]]);
  }

  /** The library's second binder test, over any names and list: declaring
      `[a, w, w, b]` and requesting `[a, b]` passes the first and fourth
      elements. */
  lemma SkippedNamesOracle<R>(a: string, w: string, b: string, list: seq<Value>, k: seq<Value> -> R)
    requires |list| >= 4 && '"' !in a && '"' !in b && !EmptyText(a) && !EmptyText(b)
    requires a != w && a != b && b != w
    ensures LetIn([a, w, w, b], list, [a, b], k) == Some(k([list[0], list[3]]))
  {
    var params := [a, w, w, b];
    ResolveDeclared(params, list, 0);
    ResolveDeclared(params, list, 3);
    TraverseTwo(Resolver(Table(params, list)), a, b, list[0], list[3]);
    LetInValues(params, list, [a, b], k, [list[0], list[3]]);
  }

  /** `range(1, 10)`. */
  function OneToTen(): (xs: seq<Value>)
    ensures |xs| == 10 && forall i | 0 <= i < 10 :: xs[i] == Int(i + 1)
  {
    seq(10, i => Int(i + 1))
  }

  /** The binder tests' continuations: ten times an integer, and the sum of
      two. */
  function TimesTen(vs: seq<Value>): int
  {
    if |vs| == 1 && vs[0].Int? then vs[0].i * 10 else 0
  }

  function Sum(vs: seq<Value>): int
  {
    if |vs| == 2 && vs[0].Int? && vs[1].Int? then vs[0].i + vs[1].i else 0
  }

  /** `letIn(['a','b','c'], range(1, 10))(['c'], $c * 10)` is 30. */
  lemma TimesTenOracle()
    ensures LetIn(["a", "b", "c"], OneToTen(), ["c"], TimesTen) == Some(30)
  {
    var xs := OneToTen();
    ThirdNameOracle("a", "b", "c", xs, TimesTen);
    assert xs[2] == Int(3);
    assert TimesTen([xs[2]]) == 30;
  }

  /** `letIn(['a','_','_','b'], range(1, 10))(['a','b'], $a + $b)` is 5. */
  lemma SumOracle()
    ensures LetIn(["a", "_", "_", "b"], OneToTen(), ["a", "b"], Sum) == Some(5)
  {
    var xs := OneToTen();
    SkippedNamesOracle("a", "_", "b", xs, Sum);
    assert xs[0] == Int(1) && xs[3] == Int(4);
    assert Sum([xs[0], xs[3]]) == 5;
  }
}

=== FILE: listmonad.dfy ===
/** The List monad (src/Functors/Monads/ListMonad.php) over PHP values: a
    wrapper around a list. `extract` flattens the list to full depth; `bind`
    puts the wrapped list in front of the lists the function produces and
    flattens the lot, so the original elements stay in the result. */
module ListMonadModel {
  import opened PhpValue

  datatype ListMonad = ListMonad(collection: seq<Value>)

  /** No element is an array. */
  predicate IsFlat(xs: seq<Value>)
  {
    forall i | 0 <= i < |xs| :: !xs[i].Arr?
  }

  /** `x` is a leaf of `xs`: a non-array value reachable from some element
      through nested arrays. */
  predicate LeafIn(x: Value, xs: seq<Value>)
    decreases xs, 1
  {
    exists i | 0 <= i < |xs| :: LeafOf(x, xs[i])
  }

  predicate LeafOf(x: Value, v: Value)
    decreases v, 0
  {
    if v.Arr? then LeafIn(x, v.items) else x == v
  }

  /** The leaves of a non-empty list are those of its head and of its tail. */
  lemma LeafInCons(xs: seq<Value>)
    requires |xs| > 0
    ensures forall x :: LeafIn(x, xs) <==> LeafOf(x, xs[0]) || LeafIn(x, xs[1..])
  {
    forall x ensures LeafIn(x, xs) <==> LeafOf(x, xs[0]) || LeafIn(x, xs[1..]) {
      if LeafIn(x, xs) {
        var i :| 0 <= i < |xs| && LeafOf(x, xs[i]);
        if i > 0 {
          assert xs[1..][i - 1] == xs[i];
        }
      }
      if LeafIn(x, xs[1..]) {
        var i :| 0 <= i < |xs[1..]| && LeafOf(x, xs[1..][i]);
        assert xs[i + 1] == xs[1..][i];
      }
    }
  }

  /** Full-depth flatten of a list: every nested array is replaced by its own
      flattened elements, in order. The result holds exactly the leaves. */
  function Flatten(xs: seq<Value>): (r: seq<Value>)
    ensures IsFlat(r)
    ensures IsFlat(xs) ==> r == xs
    ensures forall x :: x in r <==> LeafIn(x, xs)
    decreases xs, 1
  {
    if |xs| == 0 then []
    else
      LeafInCons(xs);
      FlattenOne(xs[0]) + Flatten(xs[1..])
  }

  /** The flattened contribution of one element: its leaves. */
  function FlattenOne(v: Value): (r: seq<Value>)
    ensures IsFlat(r)
    ensures !v.Arr? ==> r == [v]
    ensures forall x :: x in r <==> LeafOf(x, v)
    decreases v, 0
  {
    if v.Arr? then Flatten(v.items) else [v]
  }

  /** Flattening distributes over concatenation. */
  lemma {:induction false} FlattenAppend(a: seq<Value>, b: seq<Value>)
    ensures Flatten(a + b) == Flatten(a) + Flatten(b)
  {
    if |a| == 0 {
      assert a + b == b;
    } else {
      assert (a + b)[1..] == a[1..] + b;
      FlattenAppend(a[1..], b);
    }
  }

  /** A nested array is spliced in place: its flattened elements stand
      between those of its neighbours. */
  lemma FlattenSplice(a: seq<Value>, ys: seq<Value>, b: seq<Value>)
    ensures Flatten(a + [Arr(ys)] + b) == Flatten(a) + Flatten(ys) + Flatten(b)
  {
    FlattenAppend(a + [Arr(ys)], b);
    FlattenAppend(a, [Arr(ys)]);
    assert Flatten([Arr(ys)]) == Flatten(ys) + Flatten([]);
  }

  /** Flattening twice is flattening once. */
  lemma FlattenIdempotent(xs: seq<Value>)
    ensures Flatten(Flatten(xs)) == Flatten(xs)
  {
  }

  /** `ListMonad::of($x)`: an array is wrapped as it is, anything else as a
      one-element list. */
  function Of(x: Value): (m: ListMonad)
    ensures x.Arr? ==> m.collection == x.items
    ensures !x.Arr? ==> m.collection == [x]
  {
    ListMonad(if x.Arr? then x.items else [x])
  }

  /** `extract()`: the flattened collection. */
  function Extract(m: ListMonad): (r: seq<Value>)
    ensures IsFlat(r)
    ensures IsFlat(m.collection) ==> r == m.collection
    ensures forall x :: x in r <==> LeafIn(x, m.collection)
  {
    Flatten(m.collection)
  }

  /** The accumulator `bind` folds: for each element in order, the extracted
      list `$function($item)` yields, pushed as one array. */
  function Images(xs: seq<Value>, f: Value -> ListMonad): (r: seq<Value>)
    ensures |r| == |xs|
  {
    seq(|xs|, i requires 0 <= i < |xs| => Arr(Extract(f(xs[i]))))
  }

  /** `bind($function)`: `of(flatten(array_merge($collection, $acc)))`. The
      flattened original elements stay in front of the concatenation of what
      the function makes of each element. */
  function Bind(m: ListMonad, f: Value -> ListMonad): (r: ListMonad)
    ensures r.collection == Extract(m) + ConcatImages(m.collection, f)
  {
    FlattenAppend(m.collection, Images(m.collection, f));
    FlattenImages(m.collection, f);
    Of(Arr(Flatten(m.collection + Images(m.collection, f))))
  }

  /** `f` applied to each element, in order. */
  function Apply(xs: seq<Value>, f: Value -> Value): (r: seq<Value>)
    ensures |r| == |xs|
    ensures forall i | 0 <= i < |xs| :: r[i] == f(xs[i])
  {
    if |xs| == 0 then [] else [f(xs[0])] + Apply(xs[1..], f)
  }

  /** `map($function)`: a bind into `of`. The result is flat and starts with
      the flattened original list; the images follow, flattened in turn. */
  function Map(m: ListMonad, f: Value -> Value): (r: ListMonad)
    ensures IsFlat(r.collection)
    ensures |Extract(m)| <= |r.collection| && r.collection[..|Extract(m)|] == Extract(m)
    ensures r.collection == Extract(m) + Flatten(Apply(m.collection, f))
  {
    var g := (e: Value) => Of(f(e));
    ConcatImagesFlat(m.collection, g);
    ConcatImagesOfValues(m.collection, f, g);
    assert (Extract(m) + ConcatImages(m.collection, g))[..|Extract(m)|] == Extract(m);
    Bind(m, g)
  }

  /** `flatMap($function)`: `map($function)->extract()`. */
  function FlatMap(m: ListMonad, f: Value -> Value): (r: seq<Value>)
    ensures r == Map(m, f).collection
  {
    FlattenIdempotent(m.collection + Images(m.collection, (e: Value) => Of(f(e))));
    Extract(Map(m, f))
  }

  /** The lists the function produces, one after another. */
  function ConcatImages(xs: seq<Value>, f: Value -> ListMonad): seq<Value>
  {
    if |xs| == 0 then [] else Extract(f(xs[0])) + ConcatImages(xs[1..], f)
  }

  lemma {:induction false} FlattenImages(xs: seq<Value>, f: Value -> ListMonad)
    ensures Flatten(Images(xs, f)) == ConcatImages(xs, f)
  {
    if |xs| > 0 {
      assert Images(xs, f)[1..] == Images(xs[1..], f);
      FlattenImages(xs[1..], f);
    }
  }

  /** The images, each extracted, concatenate to a flat list. */
  lemma {:induction false} ConcatImagesFlat(xs: seq<Value>, f: Value -> ListMonad)
    ensures IsFlat(ConcatImages(xs, f))
  {
    if |xs| > 0 {
      ConcatImagesFlat(xs[1..], f);
    }
  }

  /** `extract` after `of` is the flattened argument. */
  lemma ExtractOf(x: Value)
    ensures Extract(Of(x)) == FlattenOne(x)
  {
    if !x.Arr? {
      assert Flatten([x]) == [x] + Flatten([]);
    }
  }

  /** On a flat list whose images are not arrays, `map` gives the list followed
      by the images, twice as long as the list. */
  lemma {:induction false} MapFlat(m: ListMonad, f: Value -> Value)
    requires IsFlat(m.collection)
    requires forall i | 0 <= i < |m.collection| :: !f(m.collection[i]).Arr?
    ensures Map(m, f).collection == m.collection + seq(|m.collection|, i requires 0 <= i < |m.collection| => f(m.collection[i]))
    ensures |Map(m, f).collection| == 2 * |m.collection|
  {
    ConcatImagesOfScalars(m.collection, f);
  }

  /** Binding into `of` after `f` extracts the flattened images of `f`. */
  lemma {:induction false} ConcatImagesOfValues(xs: seq<Value>, f: Value -> Value, g: Value -> ListMonad)
    requires forall e :: g(e) == Of(f(e))
    ensures ConcatImages(xs, g) == Flatten(Apply(xs, f))
  {
    if |xs| > 0 {
      ConcatImagesOfValues(xs[1..], f, g);
      ExtractOf(f(xs[0]));
      assert Apply(xs, f)[1..] == Apply(xs[1..], f);
    }
  }

  lemma {:induction false} ConcatImagesOfScalars(xs: seq<Value>, f: Value -> Value)
    requires forall i | 0 <= i < |xs| :: !f(xs[i]).Arr?
    ensures ConcatImages(xs, (e: Value) => Of(f(e))) == seq(|xs|, i requires 0 <= i < |xs| => f(xs[i]))
  {
    if |xs| > 0 {
      ConcatImagesOfScalars(xs[1..], f);
      ExtractOf(f(xs[0]));
    }
  }
}

=== FILE: maybe.dfy ===
/** The two constructors of `Maybe` that take no callbacks (src/Functors/Maybe/Maybe.php):
    `fromValue`, which turns a sentinel into `Nothing`, and `lift`, which runs a
    function over the contents of several `Maybe`s or gives `Nothing`. The
    subclasses `Just` and `Nothing` become the two constructors of a datatype. */
module MaybeFunctor {
  import opened PhpValue

  datatype Maybe<+T> = Just(value: T) | Nothing

  /** `fromValue($just, $nothing)`: `Nothing` when the value is identical to the
      sentinel, `Just` of the value otherwise. */
  function FromValue<T(==)>(x: T, sentinel: T): (r: Maybe<T>)
    ensures r.Nothing? <==> x == sentinel
    ensures r.Just? ==> r.value == x
  {
    if x != sentinel then Just(x) else Nothing
  }

  /** The status fold inside `lift`: start from `true`, and any `Nothing`
      turns it to `false` for good. */
  function FoldStatus<T>(ms: seq<Maybe<T>>): bool
  {
    if |ms| == 0 then true
    else if ms[|ms| - 1].Nothing? then false
    else FoldStatus(ms[..|ms| - 1])
  }

  /** The fold's status is `true` exactly when every argument is a `Just`. */
  lemma {:induction false} FoldStatusAllJust<T>(ms: seq<Maybe<T>>)
    ensures FoldStatus(ms) <==> forall i | 0 <= i < |ms| :: ms[i].Just?
  {
    if |ms| > 0 {
      var init := ms[..|ms| - 1];
      FoldStatusAllJust(init);
      assert forall i | 0 <= i < |init| :: init[i] == ms[i];
    }
  }

  /** `getOrElse(null)` on each argument, when all of them are `Just`. */
  function Unwrap<T>(ms: seq<Maybe<T>>): (xs: seq<T>)
    requires forall i | 0 <= i < |ms| :: ms[i].Just?
    ensures |xs| == |ms|
    ensures forall i | 0 <= i < |ms| :: ms[i] == Just(xs[i])
  {
    seq(|ms|, i requires 0 <= i < |ms| && ms[i].Just? => ms[i].value)
  }

  /** `lift($fn)(...$ms)`: when no argument is `Nothing`, `$fn` is called once
      on the unwrapped values in argument order and its result is wrapped in
      `Just`; otherwise the result is `Nothing`. */
  function Lift<T, R>(fn: seq<T> -> R, ms: seq<Maybe<T>>): (r: Maybe<R>)
    ensures r.Nothing? <==> exists i | 0 <= i < |ms| :: ms[i].Nothing?
    ensures r.Just? ==> forall i | 0 <= i < |ms| :: ms[i].Just?
    ensures r.Just? ==> r.value == fn(Unwrap(ms))
  {
    FoldStatusAllJust(ms);
    if FoldStatus(ms) then Just(fn(Unwrap(ms))) else Nothing
  }

  /** `fromValue($x)` with the default sentinel `null` over PHP values. */
  lemma FromValueNull(x: Value)
    ensures FromValue(x, Null).Nothing? <==> x.Null?
    ensures !x.Null? ==> FromValue(x, Null) == Just(x)
  {
  }

  /** With no arguments the seed `true` survives: `lift($fn)()` is `Just($fn())`. */
  lemma LiftNoArguments<T, R>(fn: seq<T> -> R)
    ensures Lift(fn, []) == Just(fn([]))
  {
    assert Unwrap<T>([]) == [];
  }

  /** One `Nothing` anywhere among the arguments is enough. */
  lemma LiftOneNothing<T, R>(fn: seq<T> -> R, ms: seq<Maybe<T>>, j: nat)
    requires j < |ms| && ms[j].Nothing?
    ensures Lift(fn, ms) == Nothing
  {
  }

  /** Lifting over `Just`s is applying the function to the wrapped values. */
  lemma LiftJusts<T, R>(fn: seq<T> -> R, xs: seq<T>)
    ensures Lift(fn, seq(|xs|, i requires 0 <= i < |xs| => Just(xs[i]))) == Just(fn(xs))
  {
    var ms := seq(|xs|, i requires 0 <= i < |xs| => Just(xs[i]));
    assert Unwrap(ms) == xs;
  }
}

=== FILE: object_pattern.dfy ===
/** Class-name patterns (src/PatternMatching/functions.php,
    `evalObjectPattern`): an object subject is matched by the key spelling its
    class name. The object is represented by that name alone. */
module ObjectPattern {
  import opened Optional
  import opened PhpValue
  import opened PhpArray
  import opened PatternSet

  predicate IsLetter(ch: char)
  {
    'a' <= ch <= 'z' || 'A' <= ch <= 'Z'
  }

  /** The key filter `preg_match('/([a-zA-Z]+)/', $val)` on string keys. */
  predicate NamesClass(k: Key)
  {
    k.StrK? && exists i | 0 <= i < |k.s| :: IsLetter(k.s[i])
  }

  /** `evalObjectPattern($patterns, $object)`: the key equal to the class
      name, provided it holds a letter, is called with no arguments. Otherwise
      `_` is called; when the pattern set has no `_`, the code reaches for a
      `constantFunction` that its namespace does not define, and fails. */
  function EvalObject<H>(ps: PArray<H>, cls: string): (r: Outcome)
    ensures !r.ReturnsFalse?
    ensures r.Invoke? ==> r.args == []
    ensures r.Invoke? && r.key != Wildcard ==> r.key == StrK(cls) && NamesClass(r.key)
    ensures (exists i | 0 <= i < |ps| :: ps[i].key == StrK(cls)) && NamesClass(StrK(cls)) ==> r == Invoke(StrK(cls), [])
    ensures r.NoHandler? <==> r == NoHandler(Wildcard)
  {
    var p := (k: Key) => NamesClass(k) && k == StrK(cls);
    var f := First(ps, p);
    FirstSpec(ps, p);
    if f.Some? then Invoke(StrK(cls), []) else Select(ps, Wildcard, [])
  }

  /** A class name that no key spells selects `_`. */
  lemma UnknownClass<H>(ps: PArray<H>, cls: string)
    requires forall i | 0 <= i < |ps| :: ps[i].key != StrK(cls)
    ensures EvalObject(ps, cls) == Select(ps, Wildcard, [])
  {
  }

  /** The library's object test: with the keys `IO`'s and `State`'s class
      names and `_`, an `IO` object selects its class key. */
  lemma ObjectOracle<H>(io: string, state: string, f: H, g: H, h: H)
    requires io != state && |io| > 0 && IsLetter(io[0])
    ensures EvalObject([Entry(StrK(io), f), Entry(StrK(state), g), Entry(Wildcard, h)], io) == Invoke(StrK(io), [])
  {
    var ps := [Entry(StrK(io), f), Entry(StrK(state), g), Entry(Wildcard, h)];
    assert ps[0].key == StrK(io);
  }
}

=== FILE: optional.dfy ===
/** An optional value: the model's way of saying "PHP stops with an error here"
    or "no entry was found". */
module Optional {

  datatype Option<+T> = None | Some(value: T)

  /** `f` applied to every element, or `None` as soon as one application
      fails. */
  function Traverse<A, B>(f: A -> Option<B>, xs: seq<A>): (r: Option<seq<B>>)
    ensures r.Some? <==> forall i | 0 <= i < |xs| :: f(xs[i]).Some?
    ensures r.Some? ==> |r.value| == |xs|
    ensures r.Some? ==> forall i | 0 <= i < |xs| :: f(xs[i]) == Some(r.value[i])
  {
    if forall i | 0 <= i < |xs| :: f(xs[i]).Some? then
      Some(seq(|xs|, i requires 0 <= i < |xs| && f(xs[i]).Some? => f(xs[i]).value))
    else None
  }

  /** Two successful applications give the two results, in order. */
  lemma TraverseTwo<A, B>(f: A -> Option<B>, x: A, y: A, u: B, v: B)
    requires f(x) == Some(u) && f(y) == Some(v)
    ensures Traverse(f, [x, y]) == Some([u, v])
  {
    var xs := [x, y];
    assert xs[0] == x && xs[1] == y;
    var r := Traverse(f, xs);
    assert r.Some?;
    assert f(xs[0]) == Some(r.value[0]) && f(xs[1]) == Some(r.value[1]);
    assert r.value == [u, v];
  }

  lemma TraverseOne<A, B>(f: A -> Option<B>, x: A, u: B)
    requires f(x) == Some(u)
    ensures Traverse(f, [x]) == Some([u])
  {
    var xs := [x];
    assert xs[0] == x;
    var r := Traverse(f, xs);
    assert r.Some?;
    assert f(xs[0]) == Some(r.value[0]);
    assert r.value == [u];
  }
}

=== FILE: partial_left.dfy ===
/** `partialLeft($fn, ...$args)` and its alias `partial`
    (src/Algorithms/PartialLeft.php). A PHP callable that takes any number of
    arguments is modelled as a function of its argument list. */
module PartialLeft {

  /** `partialLeft($fn, ...$args)`: the bound arguments come first, the
      supplied ones after them. */
  function PartialLeft<A(!new), R>(f: seq<A> -> R, bound: seq<A>): (g: seq<A> -> R)
    ensures forall inner :: g(inner) == f(bound + inner)
  {
    inner => f(bound + inner)
  }

  /** `partial` forwards to `partialLeft`: the two make the same call. */
  function Partial<A(!new), R>(f: seq<A> -> R, bound: seq<A>): (g: seq<A> -> R)
    ensures forall inner :: g(inner) == PartialLeft(f, bound)(inner)
  {
    PartialLeft(f, bound)
  }

  /** With nothing bound the arguments are forwarded unchanged. */
  lemma PartialLeftNothingBound<A(!new), R>(f: seq<A> -> R, inner: seq<A>)
    ensures PartialLeft(f, [])(inner) == f(inner)
  {
    assert [] + inner == inner;
  }

  /** Binding in two steps is binding the concatenation. */
  lemma PartialLeftTwice<A(!new), R>(f: seq<A> -> R, a: seq<A>, b: seq<A>, c: seq<A>)
    ensures PartialLeft(PartialLeft(f, a), b)(c) == f(a + b + c)
  {
    assert a + (b + c) == a + b + c;
  }
}

=== FILE: partial_right.dfy ===
/** `partialRight($fn, ...$args)` (src/Algorithms/PartialRight.php): the
    bound and the supplied arguments are merged and the whole list is
    reversed before the call. */
module PartialRight {
  import opened Sequences
  import Flip

  /** `partialRight($fn, ...$args)`: the bound and supplied arguments are
      merged and the whole list reversed, so the supplied arguments arrive
      first and the bound ones last, each group in reverse order, and `f`
      receives `|bound| + |inner|` arguments. */
  function PartialRight<A(!new), R>(f: seq<A> -> R, bound: seq<A>): (g: seq<A> -> R)
    ensures forall inner :: g(inner) == f(Reverse(inner) + Reverse(bound))
  {
    ReverseAppendAll(bound);
    inner => f(Reverse(bound + inner))
  }

  lemma ReverseAppendAll<A>(bound: seq<A>)
    ensures forall inner :: Reverse(bound + inner) == Reverse(inner) + Reverse(bound)
  {
    forall inner ensures Reverse(bound + inner) == Reverse(inner) + Reverse(bound) {
      ReverseAppend(bound, inner);
    }
  }

  /** One bound `x` and one supplied `y` give the call `f(y, x)`: this is how
      `partialRight('array_filter', 'is_callable')` filters its input. */
  lemma PartialRightOneOne<A(!new), R>(f: seq<A> -> R, x: A, y: A)
    ensures PartialRight(f, [x])([y]) == f([y, x])
  {
    assert [x] + [y] == [x, y];
    assert Reverse([x, y]) == [y, x];
  }

  /** With nothing bound, `partialRight` is `flip`. */
  lemma PartialRightIsFlip<A(!new), R>(f: seq<A> -> R, inner: seq<A>)
    ensures PartialRight(f, [])(inner) == Flip.Flip(f)(inner)
  {
    assert [] + inner == inner;
  }
}

=== FILE: pattern_set.dfy ===
/** What every matcher in src/PatternMatching/functions.php works on and
    returns. A pattern set is a PHP array from pattern keys to handlers; every
    handler is a closure, and which handler runs with which arguments is the
    decision being modelled, so a matcher returns that decision and leaves the
    call itself to the caller. */
module PatternSet {
  import opened Optional
  import opened PhpValue
  import opened PhpArray
  import opened Strings

  /** The decision a matcher takes. `ReturnsFalse` is a synthetic fallback
      that yields `false`; `NoHandler` is a lookup of a key the pattern set
      does not hold, after which PHP fails calling `null`. */
  datatype Outcome =
    | Invoke(key: Key, args: seq<Value>)
    | ReturnsFalse
    | NoHandler(key: Key)

  /** The fallback key `_`. */
  const Wildcard: Key := StrK("_")

  /** `$patterns[$key](...$args)`. */
  function Select<H>(ps: PArray<H>, k: Key, args: seq<Value>): (r: Outcome)
    ensures r.Invoke? <==> FindKey(ps, k).Some?
    ensures r.Invoke? ==> r.key == k && r.args == args
    ensures r.NoHandler? ==> r.key == k
    ensures !r.ReturnsFalse?
  {
    if FindKey(ps, k).Some? then Invoke(k, args) else NoHandler(k)
  }

  /** Position of the first key, in declaration order, satisfying `p`. */
  function First<H>(ps: PArray<H>, p: Key -> bool): (r: Option<nat>)
    ensures r.Some? ==> r.value < |ps| && p(ps[r.value].key)
  {
    if |ps| == 0 then None
    else
      var f := First(ps[..|ps| - 1], p);
      if f.Some? then f
      else if p(ps[|ps| - 1].key) then Some(|ps| - 1)
      else None
  }

  /** Nothing before the position `First` finds satisfies `p`, and `None`
      means nothing does. */
  lemma {:induction false} FirstSpec<H>(ps: PArray<H>, p: Key -> bool)
    ensures First(ps, p).Some? ==> forall i | 0 <= i < First(ps, p).value :: !p(ps[i].key)
    ensures First(ps, p).None? ==> forall i | 0 <= i < |ps| :: !p(ps[i].key)
  {
    if |ps| > 0 {
      var init := ps[..|ps| - 1];
      FirstSpec(init, p);
      assert forall i | 0 <= i < |init| :: init[i] == ps[i];
    }
  }

  /** `First` finds `i` when `i` satisfies `p` and nothing before it does. */
  lemma FirstIs<H>(ps: PArray<H>, p: Key -> bool, i: nat)
    requires i < |ps| && p(ps[i].key)
    requires forall j | 0 <= j < i :: !p(ps[j].key)
    ensures First(ps, p) == Some(i)
  {
    FirstSpec(ps, p);
  }

  /** The first key from position `i` on that satisfies `p` is called with
      the arguments `args` gives it; with none, `_` is called with none. */
  function FirstMatch<H>(ps: PArray<H>, p: Key -> bool, args: Key -> seq<Value>, i: nat): (r: Outcome)
    requires i <= |ps|
    ensures !r.ReturnsFalse?
    ensures r.NoHandler? ==> r == NoHandler(Wildcard)
    ensures r.Invoke? ==> r == Invoke(Wildcard, []) || (p(r.key) && r.args == args(r.key))
    decreases |ps| - i
  {
    if i == |ps| then Select(ps, Wildcard, [])
    else if p(ps[i].key) then Invoke(ps[i].key, args(ps[i].key))
    else FirstMatch(ps, p, args, i + 1)
  }

  /** A key satisfying `p` at `j`, with none between `i` and `j`, is the one
      called. */
  lemma {:induction false} FirstMatchAt<H>(ps: PArray<H>, p: Key -> bool, args: Key -> seq<Value>, i: nat, j: nat)
    requires i <= j < |ps| && p(ps[j].key)
    requires forall m | i <= m < j :: !p(ps[m].key)
    ensures FirstMatch(ps, p, args, i) == Invoke(ps[j].key, args(ps[j].key))
    decreases j - i
  {
    if i < j {
      FirstMatchAt(ps, p, args, i + 1, j);
    }
  }

  /** A key failing `p` is passed over. */
  lemma FirstMatchSkip<H>(ps: PArray<H>, p: Key -> bool, args: Key -> seq<Value>, i: nat)
    requires i < |ps| && !p(ps[i].key)
    ensures FirstMatch(ps, p, args, i) == FirstMatch(ps, p, args, i + 1)
  {
  }

  /** With some key satisfying `p`, the first of them is called; with none,
      `_` is. */
  lemma {:induction false} FirstMatchSpec<H>(ps: PArray<H>, p: Key -> bool, args: Key -> seq<Value>, i: nat)
    requires i <= |ps|
    ensures (exists j | i <= j < |ps| :: p(ps[j].key)) ==>
      exists j | i <= j < |ps| ::
        && p(ps[j].key)
        && (forall m | i <= m < j :: !p(ps[m].key))
        && FirstMatch(ps, p, args, i) == Invoke(ps[j].key, args(ps[j].key))
    ensures (forall j | i <= j < |ps| :: !p(ps[j].key)) ==> FirstMatch(ps, p, args, i) == Select(ps, Wildcard, [])
    decreases |ps| - i
  {
    if i < |ps| {
      FirstMatchSpec(ps, p, args, i + 1);
      if p(ps[i].key) {
        assert FirstMatch(ps, p, args, i) == Invoke(ps[i].key, args(ps[i].key));
      }
    }
  }

  /** The text of a key: `(string)` of an integer key. */
  function KeyText(k: Key): string
  {
    if k.StrK? then k.s else IntToText(k.i)
  }

  /** `"w"`: a word between double quotes, the way literals are written in
      pattern keys. */
  function Quote(w: string): string
  {
    "\"" + w + "\""
  }

  /** Deleting the quotes of `"w"` gives `w` back when `w` has none. */
  lemma UnquoteQuote(w: string)
    requires '"' !in w
    ensures DeleteAll(Quote(w), '"') == w
    ensures '"' in Quote(w)
  {
    var q := "\"";
    assert q[1..] == [];
    assert DeleteAll(q, '"') == [];
    DeleteAllAppend(q, w + q, '"');
    DeleteAllAppend(w, q, '"');
    DeleteAllAbsent(w, '"');
    assert Quote(w) == q + (w + q);
    assert Quote(w)[0] == '"';
  }

  /** Quoting is injective, and a quoted word is never `_`. */
  lemma QuoteInjective(v: string, w: string)
    ensures Quote(v) == Quote(w) ==> v == w
    ensures Quote(v) != "_"
  {
    if Quote(v) == Quote(w) {
      assert Quote(w)[1..|w| + 1] == w;
      assert Quote(v)[1..|v| + 1] == v;
    }
    assert |Quote(v)| >= 2;
  }
}

=== FILE: php_array.dfy ===
/** PHP's ordered array as a sequence of key/value entries, with the two writes
    the library uses: `$a[$k] = $v` (overwrite in place, or append a new key)
    and `$a[] = $v` (append under the next free integer key), and PHP's rule for
    turning a value into an array key. */
module PhpArray {
  import opened Optional
  import opened PhpValue

  datatype Key = IntK(i: int) | StrK(s: string)

  datatype Entry<V> = Entry(key: Key, val: V)

  type PArray<V> = seq<Entry<V>>

  /** Strings PHP stores as integer keys: a decimal integer written without
      leading zeros, optionally negative, but not `"-0"`. */
  predicate IsIntegerKeyText(s: string)
  {
    && |Magnitude(s)| >= 1
    && (forall i | 0 <= i < |Magnitude(s)| :: IsDigit(Magnitude(s)[i]))
    && (Magnitude(s)[0] != '0' || s == "0")
  }

  /** The digits after an optional minus sign. */
  function Magnitude(s: string): string
  {
    if |s| > 0 && s[0] == '-' then s[1..] else s
  }

  /** The key a string becomes when used as an array offset. */
  function KeyOfText(s: string): (k: Key)
    ensures k.StrK? <==> !IsIntegerKeyText(s)
    ensures k.StrK? ==> k.s == s
  {
    if IsIntegerKeyText(s) then
      var n: int := ParseNat(Magnitude(s));
      IntK(if s[0] == '-' then -n else n)
    else StrK(s)
  }

  /** The decimal rendering of an integer is read back as that integer key. */
  lemma KeyOfIntText(i: int)
    ensures KeyOfText(IntToText(i)) == IntK(i)
  {
    if i < 0 {
      KeyOfDigits("-" + NatToText(-i), -i);
    } else {
      KeyOfDigits(NatToText(i), i);
    }
  }

  /** A rendering whose digits after the sign spell `n`, with or without a
      minus sign, is read back as `n` or `-n`. */
  lemma KeyOfDigits(t: string, n: nat)
    requires Magnitude(t) == NatToText(n)
    requires t == NatToText(n) || (n > 0 && t == "-" + NatToText(n))
    ensures KeyOfText(t) == IntK(if t[0] == '-' then -(n as int) else n)
  {
    var m := Magnitude(t);
    assert m[0] == '0' ==> n == 0;
    assert n == 0 ==> t == "0";
    assert IsIntegerKeyText(t);
    ParseNatToText(n);
  }

  /** Values that PHP accepts as an array offset (arrays and objects are
      rejected with a TypeError). */
  predicate Keyable(v: Value)
  {
    !v.Arr? && !v.Obj?
  }

  /** The key a value becomes when used as an array offset: `null` is `""`,
      booleans are `0`/`1`, integer-like strings are integers. */
  function KeyOf(v: Value): Key
    requires Keyable(v)
  {
    match v
    case Null => StrK("")
    case Bool(b) => IntK(if b then 1 else 0)
    case Int(i) => IntK(i)
    case Str(s) => KeyOfText(s)
  }

  function Keys<V>(a: PArray<V>): seq<Key>
  {
    seq(|a|, i requires 0 <= i < |a| => a[i].key)
  }

  predicate DistinctKeys<V>(a: PArray<V>)
  {
    forall i, j | 0 <= i < j < |a| :: a[i].key != a[j].key
  }

  /** Position of the entry with key `k`. */
  function FindKey<V>(a: PArray<V>, k: Key): (r: Option<nat>)
    ensures r.Some? ==> r.value < |a| && a[r.value].key == k
    ensures r.Some? ==> forall i | 0 <= i < r.value :: a[i].key != k
    ensures r.None? ==> forall i | 0 <= i < |a| :: a[i].key != k
  {
    if |a| == 0 then None
    else
      var f := FindKey(a[..|a| - 1], k);
      if f.Some? then f
      else if a[|a| - 1].key == k then Some(|a| - 1)
      else None
  }

  /** `$a[$k]`, or `None` when the key is absent. */
  function Lookup<V>(a: PArray<V>, k: Key): Option<V>
  {
    match FindKey(a, k)
    case Some(j) => Some(a[j].val)
    case None => None
  }

  /** `$a[$k] = $v`: an existing key keeps its position and takes the new value;
      a new key is appended. */
  function Put<V>(a: PArray<V>, k: Key, v: V): (r: PArray<V>)
    ensures Keys(r) == Keys(a) || Keys(r) == Keys(a) + [k]
    ensures Lookup(r, k) == Some(v)
    ensures forall k' | k' != k :: Lookup(r, k') == Lookup(a, k')
    ensures DistinctKeys(a) ==> DistinctKeys(r)
  {
    match FindKey(a, k)
    case Some(j) =>
      var r := a[j := Entry(k, v)];
      assert Keys(r) == Keys(a);
      assert forall k' :: FindKey(r, k') == FindKey(a, k') by {
        forall k' ensures FindKey(r, k') == FindKey(a, k') {
          FindKeySameKeys(a, r, k');
        }
      }
      r
    case None =>
      var r := a + [Entry(k, v)];
      assert Keys(r) == Keys(a) + [k];
      assert r[..|r| - 1] == a;
      r
  }

  /** `FindKey` only looks at keys. */
  lemma {:induction false} FindKeySameKeys<V>(a: PArray<V>, b: PArray<V>, k: Key)
    requires Keys(a) == Keys(b)
    ensures FindKey(a, k) == FindKey(b, k)
  {
    if |a| > 0 {
      assert |a| == |Keys(a)| == |b|;
      assert Keys(a[..|a| - 1]) == Keys(a)[..|a| - 1] == Keys(b[..|b| - 1]);
      FindKeySameKeys(a[..|a| - 1], b[..|b| - 1], k);
      assert a[|a| - 1].key == Keys(a)[|a| - 1] == b[|b| - 1].key;
    }
  }

  /** Largest integer key, or -1 when there is no non-negative one. */
  function MaxIntKey<V>(a: PArray<V>): (m: int)
    ensures m >= -1
  {
    if |a| == 0 then -1
    else
      var m := MaxIntKey(a[..|a| - 1]);
      var k := a[|a| - 1].key;
      if k.IntK? && k.i > m then k.i else m
  }

  /** `$a[] = $v`: append under one more than the largest integer key. */
  function Push<V>(a: PArray<V>, v: V): (r: PArray<V>)
    ensures |r| == |a| + 1 && r[..|a|] == a
    ensures r[|a|] == Entry(IntK(MaxIntKey(a) + 1), v)
  {
    a + [Entry(IntK(MaxIntKey(a) + 1), v)]
  }

  /** Values stored under integer keys, in array order. */
  function IntValues<V>(a: PArray<V>): seq<V>
  {
    if |a| == 0 then []
    else IntValues(a[..|a| - 1]) + (if a[|a| - 1].key.IntK? then [a[|a| - 1].val] else [])
  }

  /** Integer keys, in array order. */
  function IntKeys<V>(a: PArray<V>): seq<int>
  {
    if |a| == 0 then []
    else IntKeys(a[..|a| - 1]) + (if a[|a| - 1].key.IntK? then [a[|a| - 1].key.i] else [])
  }

  /** String keys present. */
  function StrKeys<V>(a: PArray<V>): set<string>
  {
    set i | 0 <= i < |a| && a[i].key.StrK? :: a[i].key.s
  }

  /** Number of string-keyed entries. */
  function CountStr<V>(a: PArray<V>): nat
  {
    if |a| == 0 then 0 else CountStr(a[..|a| - 1]) + (if a[|a| - 1].key.StrK? then 1 else 0)
  }

  /** Integer keys are `0, 1, 2, ...` in order: a list. */
  predicate Dense<V>(a: PArray<V>)
  {
    forall n | 0 <= n < |IntKeys(a)| :: IntKeys(a)[n] == n
  }

  /** In a dense array the next free integer key is the number of integer keys. */
  lemma {:induction false} DenseNextIndex<V>(a: PArray<V>)
    requires Dense(a)
    ensures MaxIntKey(a) + 1 == |IntKeys(a)|
  {
    if |a| > 0 {
      var p := a[..|a| - 1];
      assert IntKeys(a)[..|IntKeys(p)|] == IntKeys(p);
      assert Dense(p) by {
        forall n | 0 <= n < |IntKeys(p)| ensures IntKeys(p)[n] == n {
          assert IntKeys(p)[n] == IntKeys(a)[n];
        }
      }
      DenseNextIndex(p);
      var k := a[|a| - 1].key;
      if k.IntK? {
        assert IntKeys(a)[|IntKeys(p)|] == k.i;
      }
    }
  }

  /** Overwriting the value of a string-keyed entry leaves integer keys, integer
      values and string-key counts unchanged. */
  lemma {:induction false} UpdateStrEntry<V>(a: PArray<V>, j: nat, v: V)
    requires j < |a| && a[j].key.StrK?
    ensures IntValues(a[j := Entry(a[j].key, v)]) == IntValues(a)
    ensures IntKeys(a[j := Entry(a[j].key, v)]) == IntKeys(a)
    ensures CountStr(a[j := Entry(a[j].key, v)]) == CountStr(a)
  {
    var r := a[j := Entry(a[j].key, v)];
    if j == |a| - 1 {
      assert r[..|r| - 1] == a[..|a| - 1];
    } else {
      assert r[..|r| - 1] == a[..|a| - 1][j := Entry(a[j].key, v)];
      UpdateStrEntry(a[..|a| - 1], j, v);
    }
  }

  /** What `$a[$s] = $v` with a string key does to the integer part and the
      string-key count. */
  lemma PutStr<V>(a: PArray<V>, s: string, v: V)
    ensures IntValues(Put(a, StrK(s), v)) == IntValues(a)
    ensures IntKeys(Put(a, StrK(s), v)) == IntKeys(a)
    ensures StrKeys(Put(a, StrK(s), v)) == StrKeys(a) + {s}
    ensures CountStr(Put(a, StrK(s), v)) == CountStr(a) + (if s in StrKeys(a) then 0 else 1)
  {
    var r := Put(a, StrK(s), v);
    match FindKey(a, StrK(s))
    case Some(j) =>
      UpdateStrEntry(a, j, v);
      assert r == a[j := Entry(a[j].key, v)];
      assert StrKeys(r) == StrKeys(a) by {
        assert Keys(r) == Keys(a);
        assert forall i | 0 <= i < |a| :: r[i].key == Keys(r)[i] == Keys(a)[i] == a[i].key;
      }
    case None =>
      assert r == a + [Entry(StrK(s), v)];
      assert r[..|r| - 1] == a;
      assert StrKeys(r) == StrKeys(a) + {s} by {
        assert forall i | 0 <= i < |a| :: r[i] == a[i];
      }
  }

  /** What `$a[] = $v` does to the integer part and the string keys. */
  lemma PushEffect<V>(a: PArray<V>, v: V)
    ensures IntValues(Push(a, v)) == IntValues(a) + [v]
    ensures IntKeys(Push(a, v)) == IntKeys(a) + [MaxIntKey(a) + 1]
    ensures StrKeys(Push(a, v)) == StrKeys(a)
    ensures CountStr(Push(a, v)) == CountStr(a)
    ensures forall s :: Lookup(Push(a, v), StrK(s)) == Lookup(a, StrK(s))
  {
    var r := Push(a, v);
    assert forall i | 0 <= i < |a| :: r[i] == a[i];
    assert StrKeys(r) == StrKeys(a);
    forall s ensures Lookup(r, StrK(s)) == Lookup(a, StrK(s)) {
      assert FindKey(r, StrK(s)) == FindKey(a, StrK(s));
    }
  }
}

=== FILE: php_value.dfy ===
/** PHP values as the library handles them, with the three conversions the
    library leans on: truthiness (the `(bool)` cast, also what `empty()` and a
    loose `== false` test), the string a scalar turns into when it is passed to a
    `string` parameter, and the decimal rendering of integers. Floats and
    resources are not modelled. */
module PhpValue {

  datatype Value =
    | Null
    | Bool(b: bool)
    | Int(i: int)
    | Str(s: string)
    | Arr(items: seq<Value>)
    | Obj(cls: string)

  /** The `(bool)` cast: `null`, `false`, `0`, `""`, `"0"` and `[]` are falsy,
      every object is truthy. */
  predicate Truthy(v: Value)
  {
    match v
    case Null => false
    case Bool(b) => b
    case Int(i) => i != 0
    case Str(s) => s != "" && s != "0"
    case Arr(xs) => |xs| > 0
    case Obj(_) => true
  }

  /** Values a `string` parameter accepts under PHP's coercive typing. */
  predicate IsScalar(v: Value)
  {
    v.Bool? || v.Int? || v.Str?
  }

  /** `empty($s)` for a string: only `""` and `"0"` are empty. */
  predicate EmptyText(s: string)
  {
    s == "" || s == "0"
  }

  predicate IsDigit(ch: char)
  {
    '0' <= ch <= '9'
  }

  function DigitChar(d: nat): (ch: char)
    requires d < 10
    ensures IsDigit(ch)
  {
    (('0' as int) + d) as char
  }

  function DigitValue(ch: char): (d: nat)
    requires IsDigit(ch)
    ensures d < 10
  {
    (ch as int) - ('0' as int)
  }

  /** Decimal digits of `n`, most significant first, without leading zeros. */
  function NatToText(n: nat): (r: string)
    ensures |r| >= 1
    ensures forall i | 0 <= i < |r| :: IsDigit(r[i])
    ensures (r[0] == '0') <==> n == 0
    ensures n > 0 ==> |r| >= 1 && r != "0"
  {
    if n < 10 then [DigitChar(n)] else NatToText(n / 10) + [DigitChar(n % 10)]
  }

  /** `(string)$i`: the decimal rendering of an integer. */
  function IntToText(i: int): string
  {
    if i < 0 then "-" + NatToText(-i) else NatToText(i)
  }

  /** The string a scalar becomes when coerced to `string`. */
  function Text(v: Value): string
    requires IsScalar(v)
  {
    if v.Bool? then (if v.b then "1" else "")
    else if v.Int? then IntToText(v.i)
    else v.s
  }

  /** A scalar is truthy exactly when its string form is not `empty()`, so the
      coercion to `string` neither creates nor hides a falsy value. */
  lemma TruthyIffTextNotEmpty(v: Value)
    requires IsScalar(v)
    ensures Truthy(v) <==> !EmptyText(Text(v))
  {
    if v.Int? {
      if v.i < 0 {
        var t := IntToText(v.i);
        assert t[0] == '-';
      } else if v.i > 0 {
        var t := NatToText(v.i);
        assert t[0] != '0';
      }
    }
  }

  /** Value of a string of decimal digits. */
  function ParseNat(s: string): nat
    requires forall i | 0 <= i < |s| :: IsDigit(s[i])
  {
    if |s| == 0 then 0 else ParseNat(s[..|s| - 1]) * 10 + DigitValue(s[|s| - 1])
  }

  /** Reading the decimal rendering back gives the number. */
  lemma {:induction false} ParseNatToText(n: nat)
    ensures ParseNat(NatToText(n)) == n
  {
    var s := NatToText(n);
    if n < 10 {
      assert s[..|s| - 1] == [];
    } else {
      ParseNatToText(n / 10);
      assert s[..|s| - 1] == NatToText(n / 10);
    }
  }
}

=== FILE: reader.dfy ===
/** The Reader monad (src/Functors/Monads/Reader.php): a wrapper around one
    action reading an environment. `Reader::of` tells callables from other
    values at run time; the model makes that distinction a datatype. */
module ReaderMonad {

  /** An argument of `Reader::of`: a callable action or any other value. */
  datatype Arg<-E, A> = Plain(value: A) | Callable(action: E -> A)

  datatype Reader<-E, A> = Reader(action: E -> A)

  /** `run($env)`. */
  function Run<E, A>(m: Reader<E, A>, e: E): A
  {
    m.action(e)
  }

  /** `ask()`: the stored action, which is what `run` applies. */
  function Ask<E(!new), A>(m: Reader<E, A>): (a: E -> A)
    ensures forall e :: a(e) == Run(m, e)
  {
    m.action
  }

  /** `Reader::of($action)`: a callable is stored as the action, any other
      value becomes the constant action. */
  function Of<E(!new), A>(x: Arg<E, A>): (r: Reader<E, A>)
    ensures x.Plain? ==> forall e :: Run(r, e) == x.value
    ensures x.Callable? ==> forall e :: Run(r, e) == x.action(e)
  {
    match x
    case Plain(v) => Reader(_ => v)
    case Callable(f) => Reader(f)
  }

  /** `bind($function)`: both the reader and the one `$function` builds read
      the same environment. */
  function Bind<E(!new), A, B>(m: Reader<E, A>, f: A -> Reader<E, B>): (r: Reader<E, B>)
    ensures forall e :: Run(r, e) == Run(f(Run(m, e)), e)
  {
    Reader(e => Run(f(Run(m, e)), e))
  }

  /** The value an `of` argument yields in environment `e`. */
  function Resolve<E, A>(x: Arg<E, A>, e: E): A
  {
    match x
    case Plain(v) => v
    case Callable(f) => f(e)
  }

  /** `map($function)`, a bind into `of`: the function is applied to the value
      read, and a callable result is itself applied to the same environment. */
  function Map<E(!new), A, B>(m: Reader<E, A>, f: A -> Arg<E, B>): (r: Reader<E, B>)
    ensures forall e :: Run(r, e) == Resolve(f(Run(m, e)), e)
    ensures forall e :: f(Run(m, e)).Plain? ==> Run(r, e) == f(Run(m, e)).value
  {
    Bind(m, (a: A) => Of(f(a)))
  }

  /** `ap($app)`: bind this reader's function into `$app->map`; the function
      read by `m` is applied to the value read by `n`, in the same
      environment. */
  function Ap<E(!new), A, B>(m: Reader<E, A -> Arg<E, B>>, n: Reader<E, A>): (r: Reader<E, B>)
    ensures forall e :: Run(r, e) == Resolve(Run(m, e)(Run(n, e)), e)
  {
    Bind(m, (g: A -> Arg<E, B>) => Map(n, g))
  }

  /** Left identity for a plain value. */
  lemma LeftIdentity<E(!new), A, B>(a: A, f: A -> Reader<E, B>, e: E)
    ensures Run(Bind(Of(Plain(a)), f), e) == Run(f(a), e)
  {
  }

  /** Right identity. */
  lemma RightIdentity<E(!new), A>(m: Reader<E, A>, e: E)
    ensures Run(Bind(m, (a: A) => Of<E, A>(Plain(a))), e) == Run(m, e)
  {
  }

  /** Associativity of `bind`. */
  lemma Associativity<E(!new), A, B, C>(m: Reader<E, A>, f: A -> Reader<E, B>, g: B -> Reader<E, C>, e: E)
    ensures Run(Bind(Bind(m, f), g), e) == Run(Bind(m, (a: A) => Bind(f(a), g)), e)
  {
  }
}

=== FILE: sequences.dfy ===
/** Sequence helpers the library's algorithms are built from: an order-preserving
    filter (the library's `filter`) and `array_reverse` on a list. */
module Sequences {

  /** The elements of `xs` that satisfy `p`, in their original order. */
  function Filter<T>(xs: seq<T>, p: T -> bool): (r: seq<T>)
    ensures |r| <= |xs|
    ensures forall i | 0 <= i < |r| :: p(r[i])
  {
    if |xs| == 0 then []
    else (if p(xs[0]) then [xs[0]] else []) + Filter(xs[1..], p)
  }

  /** The filter keeps exactly the elements of `xs` that satisfy `p`. */
  lemma {:induction false} FilterMembers<T>(xs: seq<T>, p: T -> bool)
    ensures forall i | 0 <= i < |Filter(xs, p)| :: Filter(xs, p)[i] in xs
    ensures forall i | 0 <= i < |xs| && p(xs[i]) :: xs[i] in Filter(xs, p)
  {
    if |xs| > 0 {
      FilterMembers(xs[1..], p);
      var head := if p(xs[0]) then [xs[0]] else [];
      var r := Filter(xs, p);
      assert r == head + Filter(xs[1..], p);
      forall i | 0 <= i < |r| ensures r[i] in xs {
        if i >= |head| {
          assert r[i] == Filter(xs[1..], p)[i - |head|];
        }
      }
      forall i | 0 <= i < |xs| && p(xs[i]) ensures xs[i] in r {
        if i > 0 {
          assert xs[i] == xs[1..][i - 1];
        }
      }
    }
  }

  /** Filtering distributes over concatenation: nothing is reordered. */
  lemma {:induction false} FilterAppend<T>(a: seq<T>, b: seq<T>, p: T -> bool)
    ensures Filter(a + b, p) == Filter(a, p) + Filter(b, p)
  {
    if |a| == 0 {
      assert a + b == b;
    } else {
      assert (a + b)[1..] == a[1..] + b;
      FilterAppend(a[1..], b, p);
    }
  }

  /** The filter keeps every element exactly when every element satisfies `p`. */
  lemma {:induction false} FilterKeepsAll<T>(xs: seq<T>, p: T -> bool)
    ensures |Filter(xs, p)| == |xs| <==> forall i | 0 <= i < |xs| :: p(xs[i])
  {
    if |xs| > 0 {
      FilterKeepsAll(xs[1..], p);
      assert forall i | 1 <= i < |xs| :: xs[i] == xs[1..][i - 1];
      if !p(xs[0]) {
        assert |Filter(xs, p)| <= |xs| - 1;
      }
    }
  }

  /** A second filter with the same predicate changes nothing. */
  lemma {:induction false} FilterIdempotent<T>(xs: seq<T>, p: T -> bool)
    ensures Filter(Filter(xs, p), p) == Filter(xs, p)
  {
    if |xs| > 0 {
      FilterIdempotent(xs[1..], p);
      var head := if p(xs[0]) then [xs[0]] else [];
      FilterAppend(head, Filter(xs[1..], p), p);
      if p(xs[0]) {
        assert Filter(head, p) == [xs[0]] + Filter(head[1..], p);
      }
    }
  }

  /** `array_reverse` on a list. */
  function Reverse<T>(xs: seq<T>): (r: seq<T>)
    ensures |r| == |xs|
    ensures forall i | 0 <= i < |xs| :: r[i] == xs[|xs| - 1 - i]
  {
    if |xs| == 0 then [] else Reverse(xs[1..]) + [xs[0]]
  }

  /** Reversing twice gives the list back. */
  lemma ReverseReverse<T>(xs: seq<T>)
    ensures Reverse(Reverse(xs)) == xs
  {
    assert forall i | 0 <= i < |xs| :: Reverse(Reverse(xs))[i] == xs[i];
  }

  /** Reversing a concatenation reverses the order of the parts. */
  lemma ReverseAppend<T>(a: seq<T>, b: seq<T>)
    ensures Reverse(a + b) == Reverse(b) + Reverse(a)
  {
    var l, r := Reverse(a + b), Reverse(b) + Reverse(a);
    assert |l| == |r|;
    forall i | 0 <= i < |l|
      ensures l[i] == r[i]
    {
      if i < |b| {
        assert l[i] == (a + b)[|a| + |b| - 1 - i];
      } else {
        assert l[i] == (a + b)[|a| + |b| - 1 - i];
      }
    }
  }

  /** A three-element sequence is the display of its elements. */
  lemma ThreeEntries<T>(r: seq<T>, x: T, y: T, z: T)
    requires |r| == 3 && r[0] == x && r[1] == y && r[2] == z
    ensures r == [x, y, z]
  {
  }
}

=== FILE: slugify.dfy ===
/** `slugify($string)` (src/Algorithms/Slugify.php): explode the string on
    spaces and join the pieces with `-`. */
module Slugify {
  import opened Strings

  function Slugify(s: string): (r: string)
    ensures r == Replace(s, ' ', '-')
    ensures |r| == |s|
    ensures forall i | 0 <= i < |s| :: r[i] == (if s[i] == ' ' then '-' else s[i])
    ensures ' ' !in r
  {
    JoinSplit(s, ' ', '-');
    Join(Split(s, ' '), '-')
  }

  /** A slug is its own slug. */
  lemma SlugifyIdempotent(s: string)
    ensures Slugify(Slugify(s)) == Slugify(s)
  {
  }

  /** A string without spaces comes back unchanged. */
  lemma SlugifyNoSpaces(s: string)
    requires ' ' !in s
    ensures Slugify(s) == s
  {
    assert forall i | 0 <= i < |s| :: s[i] != ' ';
  }
}

=== FILE: state.dfy ===
/** The State monad (src/Functors/Monads/State.php): a wrapper around one
    computation from a state to a `[value, state]` pair. Two computations are
    compared by running them on the same state. */
module StateMonad {

  datatype State<!S, A> = State(comp: S -> (A, S))

  /** `run($state)`. */
  function Run<S, A>(m: State<S, A>, s: S): (A, S)
  {
    m.comp(s)
  }

  /** `State::of($value)`: yield the value, leave the state alone. */
  function Of<S(!new), A>(v: A): (m: State<S, A>)
    ensures forall s :: Run(m, s) == (v, s)
  {
    State(s => (v, s))
  }

  /** `bind($function)`: run this computation, then the one `$function` builds
      from its value, starting from the state this one left. */
  function Bind<S(!new), A, B>(m: State<S, A>, f: A -> State<S, B>): (r: State<S, B>)
    ensures forall s :: Run(r, s) == Run(f(Run(m, s).0), Run(m, s).1)
  {
    State(s => var p := Run(m, s); Run(f(p.0), p.1))
  }

  /** `map($function)`, written in the source as a bind into `of`: it applies
      the function to the value and keeps the state the computation left. */
  function Map<S(!new), A, B>(m: State<S, A>, f: A -> B): (r: State<S, B>)
    ensures forall s :: Run(r, s) == (f(Run(m, s).0), Run(m, s).1)
  {
    Bind(m, (a: A) => Of<S, B>(f(a)))
  }

  /** `ap($monad)`: bind this computation's function into `$monad->map`. The
      state is threaded: `n` starts from the state `m` left. */
  function Ap<S(!new), A, B>(m: State<S, A -> B>, n: State<S, A>): (r: State<S, B>)
    ensures forall s :: Run(r, s) == (Run(m, s).0(Run(n, Run(m, s).1).0), Run(n, Run(m, s).1).1)
  {
    Bind(m, (g: A -> B) => Map(n, g))
  }

  /** Left identity: `of(a)->bind(f)` runs like `f(a)`. */
  lemma LeftIdentity<S(!new), A, B>(a: A, f: A -> State<S, B>, s: S)
    ensures Run(Bind(Of<S, A>(a), f), s) == Run(f(a), s)
  {
  }

  /** Right identity: `m->bind(of)` runs like `m`. */
  lemma RightIdentity<S(!new), A>(m: State<S, A>, s: S)
    ensures Run(Bind(m, (a: A) => Of<S, A>(a)), s) == Run(m, s)
  {
  }

  /** Associativity of `bind`. */
  lemma Associativity<S(!new), A, B, C>(m: State<S, A>, f: A -> State<S, B>, g: B -> State<S, C>, s: S)
    ensures Run(Bind(Bind(m, f), g), s) == Run(Bind(m, (a: A) => Bind(f(a), g)), s)
  {
  }
}

=== FILE: string_pattern.dfy ===
/** Literal string patterns (src/PatternMatching/functions.php,
    `evalStringPattern`): keys holding a double quote are compared, with their
    quotes deleted, against the subject's text. */
module StringPattern {
  import opened Optional
  import opened PhpValue
  import opened PhpArray
  import opened Strings
  import opened Sequences
  import opened PatternSet

  /** A key the string matcher considers: a string holding `"`. */
  predicate Quoted(k: Key)
  {
    k.StrK? && '"' in k.s
  }

  /** A quoted key whose text without quotes is `value`. */
  predicate LiteralFor(k: Key, value: string)
  {
    Quoted(k) && DeleteAll(k.s, '"') == value
  }

  /** The key `"value"`. */
  function QuotedKey(value: string): Key
  {
    StrK(Quote(value))
  }

  /** The map stage of `evalStringPattern` on one quoted key: for a non-empty
      subject, the key without its quotes is compared with the subject and,
      when equal, quoted again; anything else becomes `_`. */
  function Evaluate(text: string, value: string): string
  {
    if EmptyText(value) then "_"
    else if DeleteAll(text, '"') == value then Quote(DeleteAll(text, '"'))
    else "_"
  }

  predicate NotWildcardText(t: string)
  {
    t != "_"
  }

  /** The key `evalStringPattern` looks up, computed in the source's stages:
      the quoted keys in declaration order, each evaluated against the
      subject, the `_` results filtered out, and the head of the rest, or `_`
      when nothing is left. */
  function MatchedKey<H>(ps: PArray<H>, value: string): string
  {
    var quoted := Filter(Keys(ps), Quoted);
    var evaluated := seq(|quoted|, i requires 0 <= i < |quoted| => Evaluate(quoted[i].s, value));
    var matches := Filter(evaluated, NotWildcardText);
    if |matches| > 0 then matches[0] else "_"
  }

  /** The staged pipeline collapses: it yields `"subject"` exactly when the
      subject is non-empty and some quoted key spells it, and `_` otherwise. */
  lemma MatchedKeySpec<H>(ps: PArray<H>, value: string)
    ensures MatchedKey(ps, value)
         == if !EmptyText(value) && exists i | 0 <= i < |ps| :: LiteralFor(ps[i].key, value)
            then Quote(value) else "_"
  {
    var quoted := Filter(Keys(ps), Quoted);
    var evaluated := seq(|quoted|, i requires 0 <= i < |quoted| => Evaluate(quoted[i].s, value));
    var matches := Filter(evaluated, NotWildcardText);
    FilterMembers(Keys(ps), Quoted);
    FilterMembers(evaluated, NotWildcardText);
    assert forall j | 0 <= j < |evaluated| :: evaluated[j] == "_" || evaluated[j] == Quote(value);
    if !EmptyText(value) && exists i | 0 <= i < |ps| :: LiteralFor(ps[i].key, value) {
      var i :| 0 <= i < |ps| && LiteralFor(ps[i].key, value);
      assert Keys(ps)[i] == ps[i].key;
      var j :| 0 <= j < |quoted| && quoted[j] == ps[i].key;
      assert evaluated[j] == Quote(value);
      assert NotWildcardText(Quote(value)) by { QuoteInjective(value, value); }
      assert Quote(value) in matches;
      assert matches[0] in evaluated;
    } else {
      forall j | 0 <= j < |evaluated| ensures evaluated[j] == "_" {
        var k :| 0 <= k < |ps| && Keys(ps)[k] == quoted[j];
        assert Quoted(quoted[j]);
        assert !LiteralFor(ps[k].key, value) || EmptyText(value);
      }
    }
  }

  /** `evalStringPattern($patterns, $value)`: the handler under the key the
      staged pipeline yields. An empty subject (`""` or `"0"`) goes to `_`.
      Otherwise, when some quoted key without its quotes equals the subject,
      the key looked up is `"` + subject + `"`, which need not be the key that
      matched; with no such key, `_`. No handler gets arguments. */
  function EvalString<H>(ps: PArray<H>, value: string): (r: Outcome)
    ensures !r.ReturnsFalse?
    ensures r.Invoke? ==> r.args == []
    ensures !EmptyText(value) && (exists i | 0 <= i < |ps| :: LiteralFor(ps[i].key, value))
      ==> r == Select(ps, QuotedKey(value), [])
    ensures EmptyText(value) || (forall i | 0 <= i < |ps| :: !LiteralFor(ps[i].key, value))
      ==> r == Select(ps, Wildcard, [])
  {
    MatchedKeySpec(ps, value);
    Select(ps, StrK(MatchedKey(ps, value)), [])
  }

  lemma UnquoteQuotedKey(v: string)
    requires '"' !in v
    ensures LiteralFor(QuotedKey(v), v)
  {
    UnquoteQuote(v);
  }

  /** A literal key `"v"` (quote-free, non-empty `v`) present in the pattern
      set is selected for the subject `v`, and only for that subject. */
  lemma LiteralSelected<H>(ps: PArray<H>, v: string, s: string)
    requires '"' !in v && !EmptyText(v) && FindKey(ps, QuotedKey(v)).Some?
    ensures EvalString(ps, v) == Invoke(QuotedKey(v), [])
    ensures EvalString(ps, s) == Invoke(QuotedKey(v), []) ==> s == v
  {
    UnquoteQuotedKey(v);
    var j := FindKey(ps, QuotedKey(v)).value;
    assert LiteralFor(ps[j].key, v);
    QuotedKeyInjective(v, s);
  }

  lemma QuotedKeyInjective(v: string, s: string)
    ensures QuotedKey(v) == QuotedKey(s) ==> v == s
    ensures QuotedKey(v) != Wildcard
  {
    QuoteInjective(v, s);
  }

  /** An empty subject never reaches a literal, even `"0"` for the subject
      `"0"`. */
  lemma EmptySubjectFallsThrough<H>(ps: PArray<H>, value: string)
    requires EmptyText(value)
    ensures EvalString(ps, value) == Select(ps, Wildcard, [])
  {
  }

  /** The text deciding a match is the subject's string form: the integer
      `1` selects the key `"1"`. */
  lemma IntegerSubject<H>(ps: PArray<H>, n: nat)
    requires n > 0 && FindKey(ps, QuotedKey(NatToText(n))).Some?
    ensures EvalString(ps, Text(Int(n))) == Invoke(QuotedKey(NatToText(n)), [])
  {
    LiteralSelected(ps, NatToText(n), NatToText(n));
  }

  /** Two literal keys and `_`: a subject selects the literal it spells, and
      anything else selects `_`. */
  lemma TwoLiterals<H>(a: string, b: string, s: string, f: H, g: H, h: H)
    requires '"' !in a && '"' !in b && a != b
    requires !EmptyText(a) && !EmptyText(b)
    ensures EvalString([Entry(QuotedKey(a), f), Entry(QuotedKey(b), g), Entry(Wildcard, h)], s)
         == if s == a then Invoke(QuotedKey(a), [])
            else if s == b then Invoke(QuotedKey(b), [])
            else Invoke(Wildcard, [])
  {
    var ps := [Entry(QuotedKey(a), f), Entry(QuotedKey(b), g), Entry(Wildcard, h)];
    UnquoteQuotedKey(a);
    UnquoteQuotedKey(b);
    QuotedKeyInjective(a, b);
    QuotedKeyInjective(a, s);
    QuotedKeyInjective(b, s);
    assert !Quoted(Wildcard);
    if s == a {
      assert ps[0].key == QuotedKey(a);
      LiteralSelected(ps, a, a);
    } else if s == b {
      assert ps[1].key == QuotedKey(b);
      LiteralSelected(ps, b, b);
    } else {
      assert forall i | 0 <= i < |ps| :: !LiteralFor(ps[i].key, s);
    }
  }

  /** The library's string test: with `"foo"`, `"bar"` and `_`, the subject
      `foo` selects `"foo"` and `baz` selects `_`. */
  lemma WordOracles<H>(f: H, g: H, h: H)
    ensures EvalString([Entry(QuotedKey("foo"), f), Entry(QuotedKey("bar"), g), Entry(Wildcard, h)], "foo")
         == Invoke(QuotedKey("foo"), [])
    ensures EvalString([Entry(QuotedKey("foo"), f), Entry(QuotedKey("bar"), g), Entry(Wildcard, h)], "baz")
         == Invoke(Wildcard, [])
  {
    TwoLiterals("foo", "bar", "foo", f, g, h);
    TwoLiterals("foo", "bar", "baz", f, g, h);
  }

  /** The library's number test: with `"1"`, `"2"` and `_`, the integer `1`
      selects `"1"`. */
  lemma NumberOracleHit<H>(f: H, g: H, h: H)
    ensures EvalString([Entry(QuotedKey("1"), f), Entry(QuotedKey("2"), g), Entry(Wildcard, h)], Text(Int(1)))
         == Invoke(QuotedKey("1"), [])
  {
    assert Text(Int(1)) == "1";
    TwoLiterals("1", "2", "1", f, g, h);
  }

  /** ... and the integer `24` selects `_`. */
  lemma NumberOracleMiss<H>(f: H, g: H, h: H)
    ensures EvalString([Entry(QuotedKey("1"), f), Entry(QuotedKey("2"), g), Entry(Wildcard, h)], Text(Int(24)))
         == Invoke(Wildcard, [])
  {
    var t := Text(Int(24));
    assert t == NatToText(2) + [DigitChar(4)];
    assert |t| == 2 && t[0] == '2';
    TwoLiterals("1", "2", t, f, g, h);
  }
}

=== FILE: strings.dfy ===
/** The string primitives the library composes its functions from: deleting a
    character everywhere (`str_replace(c, '', s)`), splitting on a one-character
    separator (`explode`), joining with one (`implode`), and replacing a
    character everywhere. */
module Strings {

  /** Number of occurrences of `c` in `s`. */
  function Count(s: string, c: char): nat
  {
    if |s| == 0 then 0 else (if s[0] == c then 1 else 0) + Count(s[1..], c)
  }

  /** `str_replace(c, '', s)`: `s` with every `c` removed. */
  function DeleteAll(s: string, c: char): (r: string)
    ensures |r| == |s| - Count(s, c)
    ensures forall x {:trigger x in r} :: x in r <==> x in s && x != c
  {
    if |s| == 0 then ""
    else
      var rest := DeleteAll(s[1..], c);
      assert forall x :: x in s <==> x == s[0] || x in s[1..];
      (if s[0] == c then "" else [s[0]]) + rest
  }

  lemma {:induction false} DeleteAllAppend(a: string, b: string, c: char)
    ensures DeleteAll(a + b, c) == DeleteAll(a, c) + DeleteAll(b, c)
  {
    if |a| == 0 {
      assert a + b == b;
    } else {
      assert (a + b)[1..] == a[1..] + b;
      DeleteAllAppend(a[1..], b, c);
    }
  }

  /** Deleting a character that does not occur changes nothing. */
  lemma {:induction false} DeleteAllAbsent(s: string, c: char)
    requires c !in s
    ensures DeleteAll(s, c) == s
  {
    if |s| > 0 {
      assert s == [s[0]] + s[1..];
      DeleteAllAbsent(s[1..], c);
    }
  }

  /** `explode(c, s)`: the pieces of `s` between occurrences of `c`. As in PHP
      the empty string gives one empty piece. */
  function Split(s: string, c: char): (parts: seq<string>)
    ensures |parts| == Count(s, c) + 1
    ensures forall i | 0 <= i < |parts| :: c !in parts[i]
  {
    if |s| == 0 then [""]
    else
      var rest := Split(s[1..], c);
      if s[0] == c then [""] + rest
      else [[s[0]] + rest[0]] + rest[1..]
  }

  /** `implode(c, parts)`. */
  function Join(parts: seq<string>, c: char): string
  {
    if |parts| == 0 then ""
    else if |parts| == 1 then parts[0]
    else parts[0] + [c] + Join(parts[1..], c)
  }

  /** `s` with every `c` replaced by `d`. */
  function Replace(s: string, c: char, d: char): (r: string)
    ensures |r| == |s|
    ensures forall i | 0 <= i < |s| :: r[i] == (if s[i] == c then d else s[i])
  {
    if |s| == 0 then "" else [if s[0] == c then d else s[0]] + Replace(s[1..], c, d)
  }

  /** A prefix free of the separator glues onto the first piece. */
  lemma {:induction false} SplitAppend(p: string, t: string, c: char)
    requires c !in p
    ensures Split(p + t, c) == [p + Split(t, c)[0]] + Split(t, c)[1..]
  {
    if |p| > 0 {
      assert (p + t)[1..] == p[1..] + t;
      SplitAppend(p[1..], t, c);
      assert [p[0]] + (p[1..] + Split(t, c)[0]) == p + Split(t, c)[0];
    } else {
      assert p + t == t;
      assert p + Split(t, c)[0] == Split(t, c)[0];
      assert [Split(t, c)[0]] + Split(t, c)[1..] == Split(t, c);
    }
  }

  /** Joining the pieces of a split with another character replaces the
      separator by that character. */
  lemma {:induction false} JoinSplit(s: string, c: char, d: char)
    ensures Join(Split(s, c), d) == Replace(s, c, d)
  {
    if |s| > 0 {
      JoinSplit(s[1..], c, d);
      var rest := Split(s[1..], c);
      if s[0] == c {
        assert Split(s, c)[1..] == rest;
      } else {
        var parts := Split(s, c);
        if |rest| == 1 {
          assert parts == [[s[0]] + rest[0]];
        } else {
          assert parts[1..] == rest[1..];
          assert Join(rest, d) == rest[0] + [d] + Join(rest[1..], d);
          assert Join(parts, d) == [s[0]] + rest[0] + [d] + Join(rest[1..], d);
        }
      }
    }
  }

  /** Splitting a join gives the pieces back, provided none holds the separator. */
  lemma {:induction false} SplitJoin(parts: seq<string>, c: char)
    requires |parts| > 0
    requires forall i | 0 <= i < |parts| :: c !in parts[i]
    ensures Split(Join(parts, c), c) == parts
  {
    if |parts| == 1 {
      SplitAppend(parts[0], "", c);
      assert parts[0] + "" == parts[0];
    } else {
      SplitJoin(parts[1..], c);
      var t := [c] + Join(parts[1..], c);
      assert parts[0] + [c] + Join(parts[1..], c) == parts[0] + t;
      SplitAppend(parts[0], t, c);
      assert t[0] == c && t[1..] == Join(parts[1..], c);
      assert Split(t, c) == [""] + parts[1..];
      assert Join(parts, c) == parts[0] + t;
      assert parts[0] + "" == parts[0];
      assert [parts[0]] + parts[1..] == parts;
    }
  }

  /** A separator-free string splits into itself. */
  lemma SplitAbsent(s: string, c: char)
    requires c !in s
    ensures Split(s, c) == [s]
  {
    SplitAppend(s, "", c);
    assert s + "" == s;
  }
}

=== FILE: value_match.dfy ===
/** `patternMatch` (src/PatternMatching/functions.php): the entry point for a
    single value of unknown shape, which routes objects, lists and scalars to
    their matchers. */
module ValueMatch {
  import opened Optional
  import opened PhpValue
  import opened PhpArray
  import opened Strings
  import opened PatternSet
  import opened StringPattern
  import opened ArrayPattern
  import opened ObjectPattern

  /** Subjects the matchers accept: truthy values (a falsy one lands in the
      object matcher and fails there), lists of scalars and nulls. */
  predicate Matchable(v: Value)
  {
    Truthy(v) && (v.Arr? ==> forall i | 0 <= i < |v.items| :: IsElement(v.items[i]))
  }

  /** `patternMatch($patterns, $value)`: objects by class name, lists
      position by position, anything else by its string form. */
  function PatternMatch<H>(ps: PArray<H>, v: Value): (r: Outcome)
    requires Matchable(v)
    ensures !r.ReturnsFalse?
    ensures r.NoHandler? ==> r.key == Wildcard || (IsScalar(v) && r.key == QuotedKey(Text(v)))
    ensures r.Invoke? && r.args != [] ==> v.Arr? && r.key != Wildcard
    ensures v.Obj? ==> r == EvalObject(ps, v.cls)
    ensures v.Arr? ==> r == EvalArray(ps, v.items)
    ensures IsScalar(v) ==> r == EvalString(ps, Text(v))
  {
    if v.Obj? then EvalObject(ps, v.cls)
    else if v.Arr? then EvalArray(ps, v.items)
    else EvalString(ps, Text(v))
  }

  /** A truthy scalar never takes the empty-subject shortcut: it selects the
      literal key spelling its string form when some quoted key matches that
      text, and `_` otherwise. */
  lemma ScalarSelectsLiteral<H>(ps: PArray<H>, v: Value)
    requires IsScalar(v) && Truthy(v)
    ensures (exists i | 0 <= i < |ps| :: LiteralFor(ps[i].key, Text(v)))
      ==> PatternMatch(ps, v) == Select(ps, QuotedKey(Text(v)), [])
    ensures (forall i | 0 <= i < |ps| :: !LiteralFor(ps[i].key, Text(v)))
      ==> PatternMatch(ps, v) == Select(ps, Wildcard, [])
  {
    TruthyIffTextNotEmpty(v);
  }

  /** The library's single-value test, over any words: with the keys `"w"`,
      `"n"` and `_`, the string `w` selects `"w"`. */
  lemma SingleValueOracle<H>(w: string, n: string, f: H, g: H, h: H)
    requires '"' !in w && '"' !in n && w != n && !EmptyText(w) && !EmptyText(n)
    ensures PatternMatch([Entry(QuotedKey(w), f), Entry(QuotedKey(n), g), Entry(Wildcard, h)], Str(w))
         == Invoke(QuotedKey(w), [])
  {
    TwoLiterals(w, n, w, f, g, h);
  }

  /** The library's multiple-value test, over any words: with keys parsing as
      `["a", "b"]` and `["a", "b", x]` in that order, the list `[a, b, y]`
      skips the two-token key and hands `y` to the other. */
  lemma MultipleValueOracle<H>(ps: PArray<H>, k1: Key, k2: Key, a: string, b: string, x: string, y: string)
    requires Word(a) && Word(b) && Word(x)
    requires |ps| == 3 && ps[0].key == k1 && ps[1].key == k2
    requires IsListKey(k1) && |Tokens(k1.s)| == 2
    requires IsListKey(k2) && Tokens(k2.s) == ["*" + a, "*" + b, x]
    ensures PatternMatch(ps, Arr([Str(a), Str(b), Str(y)])) == Invoke(k2, [Str(y)])
  {
    NameAfterPairOracle(ps, k1, k2, a, b, x, y);
  }

  /** The library's object test, over any class names: an object of class
      `c` selects the key `c`. */
  lemma ObjectValueOracle<H>(c: string, d: string, f: H, g: H, h: H)
    requires c != d && |c| > 0 && IsLetter(c[0])
    ensures PatternMatch([Entry(StrK(c), f), Entry(StrK(d), g), Entry(Wildcard, h)], Obj(c)) == Invoke(StrK(c), [])
  {
    ObjectOracle(c, d, f, g, h);
  }
}
